=== FILE: README.md ===
# emptySpace in Dafny

A model of the core of the `emptySpace` package. The package looks for empty
regions ("gaps") in a point cloud. It works in five steps:

1. Triangulate the points.
2. Reduce the triangulation's edges to the Gabriel graph. An edge survives
   only if no other point lies in the sphere that has the edge as diameter.
3. Turn every surviving edge into a gap: its midpoint and its length.
4. Cluster the gap midpoints with k-means. The number of clusters `k` is the
   one with the best silhouette score. Each cluster centre becomes a "ghost
   point", carrying the average length of the gaps in its cluster.
5. Embed the data and the ghost points together in fewer dimensions.

The model covers:

- `emptySpace/gabriel.py`:
  - the point record (`add_edge`, `remove_edge`);
  - construction of the one-directional adjacency lists from the simplices;
  - the midpoint;
  - the empty-sphere test;
  - the mark-then-sweep pruning.
- `emptySpace/emptyspace.py`:
  - gap extraction;
  - the search over `k` with `np.argmax`;
  - the per-cluster average gap length;
  - the split of the joint embedding.

Modules:

- `Wrappers`: `Option` and `Result`.
- `Geometry`: squared distance, midpoint, and the squared form of the sphere test.
- `Gabriel`: `gabriel.py`, one function per routine. A point is its position
  in the point list. The Python code compares point objects by identity, which
  comes to the same thing.
- `GabrielTheory`: what the whole construction computes. The result is exactly
  the Gabriel edges of the triangulation's 1-skeleton, each stored once. The
  marking does not depend on visiting order.
- `EmptySpace`: `emptyspace.py`. The library calls become function
  parameters: `distance.euclidean`, `KMeans.fit`/`predict`,
  `silhouette_score` and `MDS.fit_transform`. Only `KMeans.fit` and
  `silhouette_score` can fail: they return `None` where the call would raise.
  `distance.euclidean`, `KMeans.predict` and `MDS.fit_transform` are total
  functions, so these three calls are assumed never to raise. The exceptions
  the model does cover become `Result.Failure`:
  - a failed fit;
  - a failed score;
  - `np.argmax` of an empty list;
  - division by zero for an empty cluster.
- `EmptySpaceTheory`:
  - every gap is an empty sphere;
  - the gap enumeration is exact;
  - the tie-break is deterministic;
  - the counts and sums add up;
  - the embedding splits back into its parts;
  - the unit-square example.

**Boundary convention.** The sphere test is `dist(center, r) <= radius`
(`gabriel.py:110`). A point lying exactly ON the sphere therefore invalidates
the edge. `EmptySpaceTheory.UnitSquareDropsDiagonal` proves the consequence for
the unit square: the triangulation's diagonal is removed and the four sides
remain, because the other two corners lie exactly on the diagonal's sphere.

**Distances are squared.** `SqDist(center, r) <= SqDist(p, q) / 4` stands for
`dist(center, r) <= dist(p, q) / 2`. `Geometry.SphereTestSquared` and
`GabrielTheory.SquaredTestAgrees` prove that the two tests agree whenever the
distance is the square root of `SqDist`.

## Model

| member | source | states |
|---|---|---|
| `Gabriel.AppendEdges` | emptySpace/gabriel.py:36-39 | appending a list of targets extends the edge list by exactly that list, in order; each target is recorded as not removed; every other entry of the removal table is unchanged |
| `Gabriel.AddEdge` | emptySpace/gabriel.py:25-39 | a single point is appended when only it is given, the whole list when only the list is given, and nothing changes when both or neither are given; every appended target is marked not removed; id and coordinates never change |
| `Gabriel.RemoveEdge` | emptySpace/gabriel.py:41-47 | `remove_edge` only sets the flag of that one target to removed; the edge list and every other flag are untouched |
| `Gabriel.InitialGraph` | emptySpace/gabriel.py:76-77 | there is one node per data row; node `i` has id `i`, the coordinates of row `i` and no edges |
| `Gabriel.AddPair` | emptySpace/gabriel.py:84-87 | one construction step adds at most the edge `a -> b`; no existing edge is lost; after the step distinct `a` and `b` are linked in some direction |
| `Gabriel.AddPairKeepsWellBuilt` | emptySpace/gabriel.py:84-87 | the step never creates a self-loop, a reverse duplicate or a repeated target, and it keeps the removal table equal to the edge set with every flag false |
| `Gabriel.AddPairs` | emptySpace/gabriel.py:79-88 | over a sequence of pairs, edges are only added, every added edge is one of the pairs, and every pair of distinct points ends up linked |
| `Gabriel.GeneratePointGraph` | emptySpace/gabriel.py:72-88 | the built graph has one node per data row with id equal to its index, and it has no self-loops, no duplicate undirected edges and no marked edges |
| `Gabriel.ScanFrom` | emptySpace/gabriel.py:108-112 | the scan from point `r` returns true exactly when no point at or after `r`, other than the endpoints, lies within or on the sphere |
| `Gabriel.IsValidEdge` | emptySpace/gabriel.py:104-112 | `__is_valid_edge` is true exactly when no point other than the two endpoints lies within or on the sphere whose diameter is the edge |
| `Gabriel.MarkInvalid` | emptySpace/gabriel.py:116-118 | marking one point's targets flags exactly the targets that fail the sphere test, keeps earlier flags, and leaves the edge list as it was |
| `Gabriel.PruneFrom` | emptySpace/gabriel.py:114-118 | every point from `i` on is marked against the unchanged coordinates; no point before `i` changes; coordinates never change |
| `Gabriel.KeepUnmarked` | emptySpace/gabriel.py:125 | the filtered list holds exactly the unmarked entries, each as often as before, in their original relative order |
| `Gabriel.PruneEdges` | emptySpace/gabriel.py:114-118 | `__prune_edges` keeps the point count and every coordinate, and leaves each point exactly as marking all of its own targets against the unchanged data would |
| `Gabriel.RemoveEdges` | emptySpace/gabriel.py:121-125 | each point's list becomes its old list without the marked entries, in order and with multiplicities kept; ids, coordinates and flags are unchanged |
| `Gabriel.MarkThenSweep` | emptySpace/gabriel.py:114-125 | after marking, every target has a flag; after the sweep, ids and coordinates are unchanged and a point keeps target `q` exactly when it had it and the sphere over that edge holds no other data point |
| `Gabriel.GenerateGabriel` | emptySpace/gabriel.py:62-70 | on a freshly constructed object, `generate_gabriel` gives one point per data row with id equal to its index and that row's coordinates; an edge survives exactly when it was built from the simplices and passes the sphere test against the whole data set |
| `GabrielTheory.PairListMembership` | emptySpace/gabriel.py:80-82 | the nested loops over one simplex visit exactly the pairs (earlier member, later member) |
| `GabrielTheory.SimplexPairsMembership` | emptySpace/gabriel.py:79-82 | the pairs visited over all simplices are exactly the skeleton pairs of the triangulation |
| `GabrielTheory.BuildIsSkeleton` | emptySpace/gabriel.py:79-88 | every stored edge joins an earlier and a later member of some simplex, and every such pair of distinct points is linked in at least one direction |
| `GabrielTheory.GabrielValidSymmetric` | emptySpace/gabriel.py:104-112 | the sphere test gives the same answer whichever endpoint owns the edge |
| `GabrielTheory.SquaredTestAgrees` | emptySpace/gabriel.py:104-112 | with a distance that is the square root of the squared distance, the comparison `dist(center, r) <= diameter / 2` agrees with the squared test |
| `GabrielTheory.MarkOrderIndependent` | emptySpace/gabriel.py:116-118 | the marks on one point depend only on which targets are visited, not on their order or repetition |
| `GabrielTheory.PruneOrderIndependent` | emptySpace/gabriel.py:114-118 | visiting any repetition-free selection of points, in any order, marks exactly the visited points, each against the unchanged coordinates |
| `GabrielTheory.PermutedPruneAgrees` | emptySpace/gabriel.py:114-118 | pruning the points in any permutation gives the same graph as `__prune_edges` |
| `GabrielTheory.GabrielGraphOfSkeleton` | emptySpace/gabriel.py:62-70 | the final graph keeps ids and coordinates and has no self-loops or duplicates; every edge is a skeleton pair passing the test; a skeleton pair of distinct points is linked exactly when it passes the test |
| `GabrielTheory.SubsequenceKeepsDistinct` | emptySpace/gabriel.py:125 | filtering a repetition-free list leaves it repetition-free |
| `Geometry.Center` | emptySpace/gabriel.py:90-102 | the midpoint has as many coordinates as the shorter input, as `zip` gives, and each coordinate lies exactly halfway between the two inputs' coordinates |
| `Geometry.CenterEquidistant` | emptySpace/gabriel.py:90-102 | the midpoint has the endpoints' dimension and lies at half the edge length from each endpoint, so both endpoints lie on the sphere |
| `Geometry.SphereTestSquared` | emptySpace/gabriel.py:105-110 | for non-negative distances, `d <= diameter / 2` holds exactly when `d * d <= diameter * diameter / 4` |
| `EmptySpace.EdgeList` | emptySpace/emptyspace.py:27-28 | the enumeration of the two nested loops lists only stored edges |
| `EmptySpace.CollectPointGaps` | emptySpace/emptyspace.py:28-32 | the inner loop appends one midpoint and one length per outgoing edge of the point, in list order |
| `EmptySpace.CollectGaps` | emptySpace/emptyspace.py:26-32 | the loops append, onto the lists already held, one midpoint and one length per stored edge, in the same order, so the two lists stay aligned |
| `EmptySpace.FitRange` | emptySpace/emptyspace.py:52 | the models for `k = 2, 3, ...` come in increasing `k` with one per candidate; the list fails exactly when some fit fails, and then names a failing `k` before which every fit succeeds |
| `EmptySpace.ScoreRange` | emptySpace/emptyspace.py:53 | there is one score per model, in order; it fails exactly when some score fails, and then names a failing `k` before which every score succeeds |
| `EmptySpace.ArgMax` | emptySpace/emptyspace.py:54 | the chosen index has a score at least every score and strictly above every earlier score |
| `EmptySpace.AvgClusterDistance` | emptySpace/emptyspace.py:35-47 | it succeeds exactly when every cluster has a member, giving one entry per cluster equal to the sum of its lengths over its count; otherwise it fails at the first empty cluster |
| `EmptySpace.ClusterClosePoints` | emptySpace/emptyspace.py:50-56 | the whole outcome, case by case: the argmax fails exactly when `max_clusters <= 2`; a fit failure is reported exactly when some fit raises, naming the first; a score failure exactly when every fit succeeds and some score raises, naming the first; an empty cluster only for the best model, naming its first empty cluster; and a best model without an empty cluster always gives a result, whose `k` is the first best-scoring one, whose ghost points are that model's centres and whose averages are the per-label means |
| `EmptySpace.FindEmptySpace` | emptySpace/emptyspace.py:26-33 | the collected gaps are the graph's edges, appended to the lists already held; the clustering outcome over those gaps is the one `cluster_close_points` promises, case by case, and a success has exactly `k` ghost points with `k` averages |
| `EmptySpace.BestKUnique` | emptySpace/emptyspace.py:52-55 | at most one `k` is best, so ties go to the smallest `k` |
| `EmptySpace.ScoresAreKScores` | emptySpace/emptyspace.py:52-53 | the `j`-th model and score are the fit and the score for `k = j + 2`, one per candidate |
| `EmptySpace.FirstMaxIsBestK` | emptySpace/emptyspace.py:52-54 | the first maximal score's position, plus 2, is the best `k` |
| `EmptySpace.Scale` | emptySpace/emptyspace.py:58-65 | the two parts concatenate back to the embedding; with a row-preserving embedding they have the data's and the ghost points' row counts; as Python's slices clamp, an embedding with fewer rows than the data gives every row to the first part and none to the second |
| `EmptySpaceTheory.EdgeListExact` | emptySpace/emptyspace.py:27-28 | every stored edge is enumerated, and the length of the enumeration is the number of stored edges; with repetition-free lists each edge is enumerated once |
| `EmptySpaceTheory.GabrielEdgeIsEmptySphere` | emptySpace/gabriel.py:104-125 | every edge of the final graph has both endpoints on its sphere, and every other data point strictly outside it |
| `EmptySpaceTheory.GapCentersAreEmpty` | emptySpace/emptyspace.py:27-31 | every gap midpoint extracted from the Gabriel graph has every data point other than the edge's endpoints strictly farther away than half the edge length |
| `EmptySpaceTheory.GapLengthsMeasureEdges` | emptySpace/emptyspace.py:27-32 | with the Euclidean distance, gap `j`'s length is its edge's length (the square root of the squared distance), both endpoints lie at half that length from the gap's midpoint, and every other data point lies strictly farther away |
| `EmptySpaceTheory.ArgMaxIsTheFirstMax` | emptySpace/emptyspace.py:54 | an index is the first maximum exactly when it is the argmax |
| `EmptySpaceTheory.CountsSumToTotal` | emptySpace/emptyspace.py:38-41 | when every label names one of the `k` clusters, the member counts add up to the number of gap points |
| `EmptySpaceTheory.LabelSumsSumToTotal` | emptySpace/emptyspace.py:43-44 | when every label names one of the `k` clusters, the per-cluster length sums add up to the sum of all lengths |
| `EmptySpaceTheory.ScaleRowsCorrespond` | emptySpace/emptyspace.py:60-65 | with a row-preserving embedding, data row `j` maps to embedded row `j` and ghost point `j` maps to embedded row `len(data) + j` |
| `EmptySpaceTheory.ScaleSplitsConcatenation` | emptySpace/emptyspace.py:60-65 | with an embedding that changes nothing, `scale` returns the data and the ghost points unchanged |
| `EmptySpaceTheory.SkeletonPairLinkedIff` | emptySpace/gabriel.py:62-70 | a skeleton pair of distinct points is linked in the final graph exactly when it passes the sphere test |
| `EmptySpaceTheory.DiagonalIsBlocked` | emptySpace/gabriel.py:104-112 | in the unit square the corner (1, 0) lies exactly on the sphere over the diagonal from (1, 1) to (0, 0): its squared distance from the midpoint is a quarter of the squared diagonal. The `<=` test counts it as blocking, so the diagonal fails the test |
| `EmptySpaceTheory.SideIsGabrielValid` | emptySpace/gabriel.py:104-112 | each side of the unit square passes the sphere test |
| `EmptySpaceTheory.UnitSquareSkeleton` | emptySpace/gabriel.py:79-82 | the two triangles of the unit square produce the four sides and the diagonal (0, 0)-(1, 1) as skeleton pairs |
| `EmptySpaceTheory.UnitSquareGeometry` | emptySpace/gabriel.py:104-112 | the diagonal fails the sphere test and the four sides pass it |
| `EmptySpaceTheory.UnitSquareDropsDiagonal` | emptySpace/gabriel.py:62-88 | for the unit square triangulated along the diagonal (0, 0)-(1, 1), the diagonal is pruned and the four sides remain |

`Gabriel.NewPoint` (`_point.__init__`, `gabriel.py:11-22`), `Gabriel.PairList` and `Gabriel.SimplexPairs` (the loops at `gabriel.py:79-82`) only compute. Their properties are stated by the rows of `Gabriel.InitialGraph`, `GabrielTheory.PairListMembership` and `GabrielTheory.SimplexPairsMembership`.

## Left out

- The triangulation (`scipy.spatial.Delaunay`, `gabriel.py:67`) is an input: a sequence of simplices over valid point indices. Its own failure for fewer than `d + 1` points is therefore not modelled.
- The `interactive` flag of `generate_gabriel` (`gabriel.py:62`) is accepted but never used by the code. It is not modelled.
- The constructors `Gabriel.__init__` and `Empty_Space.__init__` are not modelled. Besides storing their arguments, `Gabriel.__init__` reads `data.shape[1]` (`gabriel.py:59`), which raises for input that is not a 2-D array. The model instead takes a list of coordinate vectors, and `Rectangular` states that they have one dimension. `Empty_Space.__init__` calls `generate_gabriel`. The unused `visited_paths` table is dropped. The Gabriel graph is therefore an input to `FindEmptySpace`.
- Scale: does not model the `ValueError` that `np.concatenate` raises (`emptyspace.py:60`) when `scale` runs before clustering. At that point `ghost_points` is still the empty list set at `emptyspace.py:21`, a 1-D value that cannot be joined to the 2-D data. The model has no separate value for "no ghost points yet", so `Scale` of an empty ghost-point list returns a split.
- Floating point and `sqrt` are left out. Coordinates are `real`, and the sphere test compares squared distances. The gap length in `find_empty_space` comes from a distance parameter standing for `distance.euclidean`.
- K-means, prediction, `silhouette_score` and MDS are function parameters. So are their randomness and configuration (`n_jobs`, random seeds). Each parameter's promised shape is stated as a precondition or a lemma hypothesis:
  - `FitShape`: `n_clusters == k`, `k` centres, and labels in `[0, k)`;
  - an embedding that keeps the row count.
- `find_empty_space` applies no filter to the gap lengths: every edge of the Gabriel graph becomes a gap, and the model does the same.
- Mutation of the objects' lists is modelled as returning new values.
  - `find_empty_space` appends to the lists the object already holds. `CollectGaps` and `FindEmptySpace` take those lists as inputs.
- GenerateGabriel: covers one call on a freshly constructed `Gabriel`, as `Empty_Space.__init__` makes and uses it. A repeated call on the same object is not modelled. `generate_gabriel` appends to `point_graph` (`gabriel.py:76-77`), which only `__init__` empties (`gabriel.py:60`), so a second call would hold every point twice.
- FindEmptySpace: requires the two lists it appends to to have equal length. They always do: both start empty and grow together.
- CollectGaps: requires every stored target to be a point of the graph. In `emptyspace.py` the targets are the point objects themselves, so this always holds.
- AvgClusterDistance: requires every label to lie in `[0, n_clusters)`, which k-means promises. It does not model Python's IndexError for a label out of range, or its negative-index wrap-around.
- Geometry.Center: truncates to the shorter vector, as `zip` does. Every use in the model has equal dimensions, because a numpy array is rectangular.
- Plotting (`matplotlib`), the Flask web layer, the React front end and the experiment scripts under `tests/` are left out.

=== FILE: emptyspace.dfy ===
/** Gap extraction, the choice of the number of ghost points, the average
    gap length per ghost point and the joint embedding
    (emptySpace/emptyspace.py).

    The library calls `emptyspace.py` makes are parameters here: the Euclidean
    distance (`distance.euclidean`), k-means fitting and prediction
    (`KMeans`), the silhouette score (`silhouette_score`) and the embedding
    (`MDS.fit_transform`). Fitting and scoring may fail, and a call that
    raises is modelled as `None`; the distance, the prediction and the
    embedding are total. */
module EmptySpace {
  import opened Wrappers
  import opened Geometry
  import opened Gabriel

  /** A fitted k-means model: `n_clusters`, `labels_`, `cluster_centers_`. */
  datatype KMeansModel = KMeansModel(nClusters: nat, labels: seq<nat>, centers: seq<Vector>)

  /** `KMeans(n_clusters=k).fit(points)`, or `None` when it raises. */
  type Fit = (seq<Vector>, nat) -> Option<KMeansModel>

  /** `km.predict(points)`. */
  type Predict = (KMeansModel, seq<Vector>) -> seq<nat>

  /** `silhouette_score(points, labels)`, or `None` when it raises. */
  type Silhouette = (seq<Vector>, seq<nat>) -> Option<real>

  /** `MDS(n_components=d).fit_transform(points)`. */
  type Embed = (seq<Vector>, nat) -> seq<Vector>

  /** Why the clustering stage stops: a fit or a score raised, the candidate
      range was empty (`np.argmax` of an empty list), or a cluster of the
      chosen model has no member (division by zero). */
  datatype Error = FitFailed(k: nat) | ScoreFailed(k: nat) | EmptyArgmax | EmptyCluster(cluster: nat)

  /** The chosen number of clusters, the ghost points and their average gap
      lengths. */
  datatype Clustering = Clustering(k: nat, ghostPoints: seq<Vector>, ghostPointAvgDist: seq<real>)

  // ---------------------------------------------------------------------
  // Gap extraction
  // ---------------------------------------------------------------------

  function OutEdges(i: nat, targets: seq<nat>): seq<(nat, nat)>
  {
    seq(|targets|, k requires 0 <= k < |targets| => (i, targets[k]))
  }

  /** Every stored edge: point by point, and in list order within a point. */
  function EdgeList(g: Graph): (es: seq<(nat, nat)>)
    ensures forall j :: 0 <= j < |es| ==> HasEdge(g, es[j].0, es[j].1)
    decreases |g|
  {
    if |g| == 0 then []
    else
      var init := g[..|g| - 1];
      var front := EdgeList(init);
      assert forall j :: 0 <= j < |front| ==> init[front[j].0] == g[front[j].0];
      front + OutEdges(|g| - 1, g[|g| - 1].edges)
  }

  /** Both endpoints of every edge are points of `g`. */
  predicate EdgesOf(g: Graph, es: seq<(nat, nat)>)
  {
    forall j :: 0 <= j < |es| ==> es[j].0 < |g| && es[j].1 < |g|
  }

  /** The midpoint of each edge. */
  function GapCenters(g: Graph, es: seq<(nat, nat)>): seq<Vector>
    requires EdgesOf(g, es)
  {
    seq(|es|, j requires 0 <= j < |es| => Center(g[es[j].0].coordinates, g[es[j].1].coordinates))
  }

  /** The length of each edge. */
  function GapLengths(g: Graph, es: seq<(nat, nat)>, dist: Metric): seq<real>
    requires EdgesOf(g, es)
  {
    seq(|es|, j requires 0 <= j < |es| => dist(g[es[j].0].coordinates, g[es[j].1].coordinates))
  }

  lemma GapsAppend(g: Graph, es: seq<(nat, nat)>, e: (nat, nat), dist: Metric)
    requires EdgesOf(g, es) && e.0 < |g| && e.1 < |g|
    ensures EdgesOf(g, es + [e])
    ensures GapCenters(g, es + [e]) == GapCenters(g, es) + [Center(g[e.0].coordinates, g[e.1].coordinates)]
    ensures GapLengths(g, es + [e], dist) == GapLengths(g, es, dist) + [dist(g[e.0].coordinates, g[e.1].coordinates)]
  {
  }

  /** Taking one more point into the prefix appends that point's edges. */
  lemma EdgeListStep(g: Graph, i: nat)
    requires i < |g|
    ensures EdgeList(g[..i + 1]) == EdgeList(g[..i]) + OutEdges(i, g[i].edges)
  {
    assert g[..i + 1][..i] == g[..i];
  }

  /** Gaps of two edge sequences, one after the other. */
  lemma GapsConcat(g: Graph, es: seq<(nat, nat)>, fs: seq<(nat, nat)>, dist: Metric)
    requires EdgesOf(g, es) && EdgesOf(g, fs)
    ensures EdgesOf(g, es + fs)
    ensures GapCenters(g, es + fs) == GapCenters(g, es) + GapCenters(g, fs)
    ensures GapLengths(g, es + fs, dist) == GapLengths(g, es, dist) + GapLengths(g, fs, dist)
  {
  }

  /** The inner loop of `find_empty_space` for point `i`: one midpoint and
      one length per outgoing edge, in list order. */
  method CollectPointGaps(g: Graph, i: nat, dist: Metric, centers0: seq<Vector>, dists0: seq<real>)
      returns (centers: seq<Vector>, dists: seq<real>)
    requires EdgesInRange(g) && i < |g|
    ensures EdgesOf(g, OutEdges(i, g[i].edges))
    ensures centers == centers0 + GapCenters(g, OutEdges(i, g[i].edges))
    ensures dists == dists0 + GapLengths(g, OutEdges(i, g[i].edges), dist)
  {
    centers, dists := centers0, dists0;
    var point := g[i];
    var k := 0;
    while k < |point.edges|
      invariant 0 <= k <= |point.edges|
      invariant EdgesOf(g, OutEdges(i, point.edges[..k]))
      invariant centers == centers0 + GapCenters(g, OutEdges(i, point.edges[..k]))
      invariant dists == dists0 + GapLengths(g, OutEdges(i, point.edges[..k]), dist)
    {
      var q := point.edges[k];
      assert q in g[i].edges;
      var d := dist(point.coordinates, g[q].coordinates);
      var center := Center(point.coordinates, g[q].coordinates);
      GapsAppend(g, OutEdges(i, point.edges[..k]), (i, q), dist);
      assert OutEdges(i, point.edges[..k + 1]) == OutEdges(i, point.edges[..k]) + [(i, q)];
      centers := centers + [center];
      dists := dists + [d];
      k := k + 1;
    }
    assert point.edges[..k] == point.edges;
  }

  /** One round of the outer loop of `find_empty_space` extends the gaps of
      the first `i` points to those of the first `i + 1`. */
  lemma GapsStep(g: Graph, i: nat, dist: Metric, centers0: seq<Vector>, dists0: seq<real>,
                 centers: seq<Vector>, dists: seq<real>, centers': seq<Vector>, dists': seq<real>)
    requires i < |g| && EdgesOf(g, EdgeList(g[..i])) && EdgesOf(g, OutEdges(i, g[i].edges))
    requires centers == centers0 + GapCenters(g, EdgeList(g[..i]))
    requires dists == dists0 + GapLengths(g, EdgeList(g[..i]), dist)
    requires centers' == centers + GapCenters(g, OutEdges(i, g[i].edges))
    requires dists' == dists + GapLengths(g, OutEdges(i, g[i].edges), dist)
    ensures EdgesOf(g, EdgeList(g[..i + 1]))
    ensures centers' == centers0 + GapCenters(g, EdgeList(g[..i + 1]))
    ensures dists' == dists0 + GapLengths(g, EdgeList(g[..i + 1]), dist)
  {
    var es, fs := EdgeList(g[..i]), OutEdges(i, g[i].edges);
    EdgeListStep(g, i);
    GapsConcat(g, es, fs, dist);
    ConcatAssociative(centers0, GapCenters(g, es), GapCenters(g, fs));
    ConcatAssociative(dists0, GapLengths(g, es, dist), GapLengths(g, fs, dist));
  }

  lemma ConcatAssociative<T>(a: seq<T>, b: seq<T>, c: seq<T>)
    ensures (a + b) + c == a + (b + c)
  {
  }

  /** The loops of `find_empty_space`: for every stored edge, in order, the
      midpoint and the length are appended to the lists already held. */
  method CollectGaps(g: Graph, dist: Metric, centers0: seq<Vector>, dists0: seq<real>)
      returns (centers: seq<Vector>, dists: seq<real>)
    requires EdgesInRange(g)
    ensures EdgesOf(g, EdgeList(g))
    ensures centers == centers0 + GapCenters(g, EdgeList(g))
    ensures dists == dists0 + GapLengths(g, EdgeList(g), dist)
  {
    centers, dists := centers0, dists0;
    var i := 0;
    while i < |g|
      invariant 0 <= i <= |g|
      invariant EdgesOf(g, EdgeList(g[..i]))
      invariant centers == centers0 + GapCenters(g, EdgeList(g[..i]))
      invariant dists == dists0 + GapLengths(g, EdgeList(g[..i]), dist)
    {
      var centers', dists' := CollectPointGaps(g, i, dist, centers, dists);
      GapsStep(g, i, dist, centers0, dists0, centers, dists, centers', dists');
      centers, dists := centers', dists';
      i := i + 1;
    }
    assert g[..|g|] == g;
  }

  // ---------------------------------------------------------------------
  // Choosing the number of clusters
  // ---------------------------------------------------------------------

  /** `idx` is the first position of a maximal score. */
  predicate IsFirstMax(scores: seq<real>, idx: nat)
    requires idx < |scores|
  {
    && (forall j :: 0 <= j < |scores| ==> scores[j] <= scores[idx])
    && (forall j :: 0 <= j < idx ==> scores[j] < scores[idx])
  }

  /** `np.argmax` of a non-empty list. */
  function ArgMax(scores: seq<real>): (idx: nat)
    requires |scores| > 0
    ensures idx < |scores| && IsFirstMax(scores, idx)
    decreases |scores|
  {
    if |scores| == 1 then 0
    else
      var best := ArgMax(scores[..|scores| - 1]);
      if scores[|scores| - 1] > scores[best] then |scores| - 1 else best
  }

  /** The fitted models for `k, k + 1, ..., hi - 1`, in that order; the
      first fit that raises aborts the whole list. */
  function FitRange(pts: seq<Vector>, k: nat, hi: int, fit: Fit): (r: Result<seq<KMeansModel>, Error>)
    ensures r.Success? <==> forall k': nat :: k <= k' < hi ==> fit(pts, k').Some?
    ensures r.Success? ==> |r.value| == (if hi <= k then 0 else hi - k)
    ensures r.Success? ==> forall j :: 0 <= j < |r.value| ==> fit(pts, k + j) == Some(r.value[j])
    ensures r.Failure? ==> r.error.FitFailed? && k <= r.error.k < hi && fit(pts, r.error.k).None?
    ensures r.Failure? ==> forall k': nat :: k <= k' < r.error.k ==> fit(pts, k').Some?
    decreases hi - k
  {
    if hi <= k then Success([])
    else
      match fit(pts, k)
      case None => Failure(FitFailed(k))
      case Some(m) =>
        match FitRange(pts, k + 1, hi, fit)
        case Failure(e) => Failure(e)
        case Success(ms) => Success([m] + ms)
  }

  /** The silhouette score of each model's prediction, in order; the first
      score that raises aborts the list. `k` is the cluster count of the
      first model. */
  function ScoreRange(pts: seq<Vector>, models: seq<KMeansModel>, k: nat, predict: Predict, silhouette: Silhouette)
    : (r: Result<seq<real>, Error>)
    ensures r.Success? <==> forall j :: 0 <= j < |models| ==> silhouette(pts, predict(models[j], pts)).Some?
    ensures r.Success? ==> |r.value| == |models|
    ensures r.Success? ==> forall j :: 0 <= j < |models| ==> silhouette(pts, predict(models[j], pts)) == Some(r.value[j])
    ensures r.Failure? ==> r.error.ScoreFailed? && k <= r.error.k < k + |models|
                           && silhouette(pts, predict(models[r.error.k - k], pts)).None?
    ensures r.Failure? ==> forall j :: 0 <= j < r.error.k - k ==> silhouette(pts, predict(models[j], pts)).Some?
    decreases |models|
  {
    if |models| == 0 then Success([])
    else
      match silhouette(pts, predict(models[0], pts))
      case None => Failure(ScoreFailed(k))
      case Some(s) =>
        match ScoreRange(pts, models[1..], k + 1, predict, silhouette)
        case Failure(e) =>
          assert forall j :: 1 <= j < |models| ==> models[j] == models[1..][j - 1];
          Failure(e)
        case Success(ss) => Success([s] + ss)
  }

  /** The score `cluster_close_points` computes for `k` clusters, if it can. */
  ghost function KScore(pts: seq<Vector>, k: nat, fit: Fit, predict: Predict, silhouette: Silhouette): Option<real>
  {
    match fit(pts, k)
    case None => None
    case Some(m) => silhouette(pts, predict(m, pts))
  }

  /** `k` scores at least as high as every candidate and strictly higher
      than every smaller candidate. */
  ghost predicate IsBestK(pts: seq<Vector>, k: nat, maxClusters: int, fit: Fit, predict: Predict, silhouette: Silhouette)
  {
    && 2 <= k < maxClusters
    && KScore(pts, k, fit, predict, silhouette).Some?
    && (forall k': nat :: 2 <= k' < maxClusters ==>
          KScore(pts, k', fit, predict, silhouette).Some?
          && KScore(pts, k', fit, predict, silhouette).value <= KScore(pts, k, fit, predict, silhouette).value)
    && (forall k': nat :: 2 <= k' < k ==>
          KScore(pts, k', fit, predict, silhouette).value < KScore(pts, k, fit, predict, silhouette).value)
  }

  /** At most one cluster count is best: ties go to the smallest k. */
  lemma BestKUnique(pts: seq<Vector>, k1: nat, k2: nat, maxClusters: int, fit: Fit, predict: Predict, silhouette: Silhouette)
    requires IsBestK(pts, k1, maxClusters, fit, predict, silhouette)
    requires IsBestK(pts, k2, maxClusters, fit, predict, silhouette)
    ensures k1 == k2
  {
  }

  /** The model k-means returns for `k` clusters has that many clusters,
      that many centers, and one label in `[0, k)` per point. */
  predicate FitShape(m: KMeansModel, k: nat, n: nat)
  {
    && m.nClusters == k
    && |m.centers| == k
    && |m.labels| == n
    && forall j :: 0 <= j < |m.labels| ==> m.labels[j] < k
  }

  // ---------------------------------------------------------------------
  // Average gap length per cluster
  // ---------------------------------------------------------------------

  /** The number of labels equal to `c`. */
  function Count(labels: seq<nat>, c: nat): nat
    decreases |labels|
  {
    if |labels| == 0 then 0
    else Count(labels[..|labels| - 1], c) + (if labels[|labels| - 1] == c then 1 else 0)
  }

  /** The sum of the lengths labelled `c`. */
  function LabelSum(labels: seq<nat>, lengths: seq<real>, c: nat): real
    requires |labels| == |lengths|
    decreases |labels|
  {
    if |labels| == 0 then 0.0
    else
      var n := |labels| - 1;
      LabelSum(labels[..n], lengths[..n], c) + (if labels[n] == c then lengths[n] else 0.0)
  }

  /** `__get_avg_cluster_distance`: count the members of each cluster, sum
      their lengths, then divide cluster by cluster; the first cluster with
      no member stops the computation. */
  method AvgClusterDistance(nClusters: nat, labels: seq<nat>, lengths: seq<real>)
      returns (r: Result<seq<real>, Error>)
    requires |labels| == |lengths|
    requires forall j :: 0 <= j < |labels| ==> labels[j] < nClusters
    ensures r.Success? <==> forall c :: 0 <= c < nClusters ==> Count(labels, c) > 0
    ensures r.Failure? ==> r.error.EmptyCluster? && r.error.cluster < nClusters && Count(labels, r.error.cluster) == 0
    ensures r.Failure? ==> forall c :: 0 <= c < r.error.cluster ==> Count(labels, c) > 0
    ensures r.Success? ==> |r.value| == nClusters
    ensures r.Success? ==> forall c :: 0 <= c < nClusters ==>
              r.value[c] == LabelSum(labels, lengths, c) / (Count(labels, c) as real)
  {
    var counts: seq<nat> := seq(nClusters, _ => 0);
    var i := 0;
    while i < |labels|
      invariant 0 <= i <= |labels| && |counts| == nClusters
      invariant forall c :: 0 <= c < nClusters ==> counts[c] == Count(labels[..i], c)
    {
      assert labels[..i + 1][..i] == labels[..i];
      counts := counts[labels[i] := counts[labels[i]] + 1];
      i := i + 1;
    }
    assert labels[..i] == labels;

    var sums: seq<real> := seq(nClusters, _ => 0.0);
    i := 0;
    while i < |labels|
      invariant 0 <= i <= |labels| && |sums| == nClusters
      invariant forall c :: 0 <= c < nClusters ==> sums[c] == LabelSum(labels[..i], lengths[..i], c)
    {
      assert labels[..i + 1][..i] == labels[..i] && lengths[..i + 1][..i] == lengths[..i];
      sums := sums[labels[i] := sums[labels[i]] + lengths[i]];
      i := i + 1;
    }
    assert lengths[..i] == lengths;

    var avg := sums;
    var c := 0;
    while c < nClusters
      invariant 0 <= c <= nClusters && |avg| == nClusters
      invariant forall c' :: 0 <= c' < c ==> Count(labels, c') > 0 && avg[c'] == sums[c'] / (counts[c'] as real)
      invariant forall c' :: c <= c' < nClusters ==> avg[c'] == sums[c']
    {
      if counts[c] == 0 {
        return Failure(EmptyCluster(c));
      }
      avg := avg[c := avg[c] / (counts[c] as real)];
      c := c + 1;
    }
    return Success(avg);
  }

  // ---------------------------------------------------------------------
  // The outcome of `cluster_close_points`, case by case
  // ---------------------------------------------------------------------

  /** Every fit for a candidate `k` in `[2, maxClusters)` succeeds. */
  ghost predicate AllFit(pts: seq<Vector>, maxClusters: int, fit: Fit)
  {
    forall k: nat :: 2 <= k < maxClusters ==> fit(pts, k).Some?
  }

  /** `np.argmax` fails exactly when the candidate range is empty. */
  ghost predicate ArgmaxOutcome(maxClusters: int, r: Result<Clustering, Error>)
  {
    r.Failure? && r.error.EmptyArgmax? <==> maxClusters <= 2
  }

  /** A fit that raises aborts the search, and only then is a fit failure
      reported; the one reported is the first. */
  ghost predicate FitOutcome(pts: seq<Vector>, maxClusters: int, fit: Fit, r: Result<Clustering, Error>)
  {
    && (r.Failure? && r.error.FitFailed? <==> !AllFit(pts, maxClusters, fit))
    && (r.Failure? && r.error.FitFailed? ==>
          && 2 <= r.error.k < maxClusters && fit(pts, r.error.k).None?
          && forall k: nat :: 2 <= k < r.error.k ==> fit(pts, k).Some?)
  }

  /** When every fit succeeds, a score that raises aborts the search, and
      only then is a score failure reported; the one reported is the first. */
  ghost predicate ScoreOutcome(pts: seq<Vector>, maxClusters: int, fit: Fit, predict: Predict, silhouette: Silhouette,
                               r: Result<Clustering, Error>)
  {
    && (r.Failure? && r.error.ScoreFailed? <==>
          && AllFit(pts, maxClusters, fit)
          && exists k: nat :: 2 <= k < maxClusters && KScore(pts, k, fit, predict, silhouette).None?)
    && (r.Failure? && r.error.ScoreFailed? ==>
          && 2 <= r.error.k < maxClusters && KScore(pts, r.error.k, fit, predict, silhouette).None?
          && forall k: nat :: 2 <= k < r.error.k ==> KScore(pts, k, fit, predict, silhouette).Some?)
  }

  /** The best model's clusters all have members. */
  ghost predicate NoEmptyCluster(pts: seq<Vector>, k: nat, fit: Fit)
    requires fit(pts, k).Some?
  {
    forall c :: 0 <= c < k ==> Count(fit(pts, k).value.labels, c) > 0
  }

  /** An empty cluster of the best model stops the averaging at the first
      such cluster; a best model without one always gives a result. */
  ghost predicate AverageOutcome(pts: seq<Vector>, maxClusters: int, fit: Fit, predict: Predict, silhouette: Silhouette,
                                 r: Result<Clustering, Error>)
  {
    && (r.Failure? && r.error.EmptyCluster? ==>
          exists k: nat :: IsBestK(pts, k, maxClusters, fit, predict, silhouette)
                           && r.error.cluster < k
                           && Count(fit(pts, k).value.labels, r.error.cluster) == 0
                           && forall c :: 0 <= c < r.error.cluster ==> Count(fit(pts, k).value.labels, c) > 0)
    && ((exists k: nat :: IsBestK(pts, k, maxClusters, fit, predict, silhouette) && NoEmptyCluster(pts, k, fit))
          ==> r.Success?)
  }

  /** A result carries the first best-scoring `k`, that model's centres as
      ghost points, and per cluster the mean length of its members. */
  ghost predicate SuccessOutcome(pts: seq<Vector>, lengths: seq<real>, maxClusters: int,
                                 fit: Fit, predict: Predict, silhouette: Silhouette, r: Result<Clustering, Error>)
  {
    r.Success? ==>
      var c := r.value;
      && IsBestK(pts, c.k, maxClusters, fit, predict, silhouette)
      && c.ghostPoints == fit(pts, c.k).value.centers
      && |c.ghostPointAvgDist| == c.k
      && |fit(pts, c.k).value.labels| == |lengths|
      && forall l :: 0 <= l < c.k ==>
           var labels := fit(pts, c.k).value.labels;
           Count(labels, l) > 0 && c.ghostPointAvgDist[l] == LabelSum(labels, lengths, l) / (Count(labels, l) as real)
  }

  /** The whole outcome of `cluster_close_points`. */
  ghost predicate ClusterOutcome(pts: seq<Vector>, lengths: seq<real>, maxClusters: int,
                                 fit: Fit, predict: Predict, silhouette: Silhouette, r: Result<Clustering, Error>)
  {
    && ArgmaxOutcome(maxClusters, r)
    && FitOutcome(pts, maxClusters, fit, r)
    && ScoreOutcome(pts, maxClusters, fit, predict, silhouette, r)
    && AverageOutcome(pts, maxClusters, fit, predict, silhouette, r)
    && SuccessOutcome(pts, lengths, maxClusters, fit, predict, silhouette, r)
  }

  /** A best `k` has every candidate fitted and scored. */
  lemma BestKScoresAll(pts: seq<Vector>, k: nat, maxClusters: int, fit: Fit, predict: Predict, silhouette: Silhouette)
    requires IsBestK(pts, k, maxClusters, fit, predict, silhouette)
    ensures maxClusters > 2 && AllFit(pts, maxClusters, fit)
    ensures forall k': nat :: 2 <= k' < maxClusters ==> KScore(pts, k', fit, predict, silhouette).Some?
  {
    forall k': nat | 2 <= k' < maxClusters
      ensures fit(pts, k').Some?
    {
      assert KScore(pts, k', fit, predict, silhouette).Some?;
    }
  }

  /** Reporting the first fit that raises is the outcome when it is the
      first failing fit. */
  lemma FitFailureOutcome(pts: seq<Vector>, lengths: seq<real>, maxClusters: int,
                          fit: Fit, predict: Predict, silhouette: Silhouette, j: nat)
    requires 2 <= j < maxClusters && fit(pts, j).None?
    requires forall k: nat :: 2 <= k < j ==> fit(pts, k).Some?
    ensures ClusterOutcome(pts, lengths, maxClusters, fit, predict, silhouette, Failure(FitFailed(j)))
  {
    assert KScore(pts, j, fit, predict, silhouette).None?;
  }

  /** Reporting the first score that raises is the outcome when every fit
      succeeds and it is the first failing score. */
  lemma ScoreFailureOutcome(pts: seq<Vector>, lengths: seq<real>, maxClusters: int,
                            fit: Fit, predict: Predict, silhouette: Silhouette, j: nat)
    requires AllFit(pts, maxClusters, fit)
    requires 2 <= j < maxClusters && KScore(pts, j, fit, predict, silhouette).None?
    requires forall k: nat :: 2 <= k < j ==> KScore(pts, k, fit, predict, silhouette).Some?
    ensures ClusterOutcome(pts, lengths, maxClusters, fit, predict, silhouette, Failure(ScoreFailed(j)))
  {
  }

  /** With no candidate, the argmax failure is the outcome. */
  lemma ArgmaxFailureOutcome(pts: seq<Vector>, lengths: seq<real>, maxClusters: int,
                             fit: Fit, predict: Predict, silhouette: Silhouette)
    requires maxClusters <= 2
    ensures ClusterOutcome(pts, lengths, maxClusters, fit, predict, silhouette, Failure(EmptyArgmax))
  {
  }

  /** The first empty cluster of the best model is the outcome. */
  lemma EmptyClusterOutcome(pts: seq<Vector>, lengths: seq<real>, maxClusters: int,
                            fit: Fit, predict: Predict, silhouette: Silhouette, k: nat, c: nat)
    requires IsBestK(pts, k, maxClusters, fit, predict, silhouette)
    requires c < k && Count(fit(pts, k).value.labels, c) == 0
    requires forall c' :: 0 <= c' < c ==> Count(fit(pts, k).value.labels, c') > 0
    ensures ClusterOutcome(pts, lengths, maxClusters, fit, predict, silhouette, Failure(EmptyCluster(c)))
  {
    BestKScoresAll(pts, k, maxClusters, fit, predict, silhouette);
    forall k' | IsBestK(pts, k', maxClusters, fit, predict, silhouette)
      ensures !NoEmptyCluster(pts, k', fit)
    {
      BestKUnique(pts, k', k, maxClusters, fit, predict, silhouette);
    }
  }

  /** A clustering of the best model with its averages is the outcome. */
  lemma SuccessfulOutcome(pts: seq<Vector>, lengths: seq<real>, maxClusters: int,
                          fit: Fit, predict: Predict, silhouette: Silhouette,
                          k: nat, m: KMeansModel, avg: seq<real>)
    requires IsBestK(pts, k, maxClusters, fit, predict, silhouette) && fit(pts, k) == Some(m)
    requires |m.labels| == |lengths| && |avg| == k
    requires forall c :: 0 <= c < k ==> Count(m.labels, c) > 0
    requires forall c :: 0 <= c < k ==> avg[c] == LabelSum(m.labels, lengths, c) / (Count(m.labels, c) as real)
    ensures ClusterOutcome(pts, lengths, maxClusters, fit, predict, silhouette, Success(Clustering(k, m.centers, avg)))
  {
    BestKScoresAll(pts, k, maxClusters, fit, predict, silhouette);
  }

  /** The fitted models are the fits of `2, 3, ..., maxClusters - 1`. */
  lemma ModelsAreFits(pts: seq<Vector>, maxClusters: int, fit: Fit, models: seq<KMeansModel>)
    requires FitRange(pts, 2, maxClusters, fit) == Success(models)
    ensures AllFit(pts, maxClusters, fit)
    ensures forall k: nat :: 2 <= k < maxClusters ==> k - 2 < |models| && fit(pts, k) == Some(models[k - 2])
  {
    forall k: nat | 2 <= k < maxClusters
      ensures k - 2 < |models| && fit(pts, k) == Some(models[k - 2])
    {
      assert fit(pts, 2 + (k - 2)) == Some(models[k - 2]);
    }
  }

  /** Once every fit succeeds, the first score that raises is the outcome. */
  lemma ScoreRangeFailureOutcome(pts: seq<Vector>, lengths: seq<real>, maxClusters: int,
                                 fit: Fit, predict: Predict, silhouette: Silhouette, models: seq<KMeansModel>, e: Error)
    requires FitRange(pts, 2, maxClusters, fit) == Success(models)
    requires ScoreRange(pts, models, 2, predict, silhouette) == Failure(e)
    ensures ClusterOutcome(pts, lengths, maxClusters, fit, predict, silhouette, Failure(e))
  {
    ModelsAreFits(pts, maxClusters, fit, models);
    assert e.ScoreFailed? && 2 <= e.k < 2 + |models|;
    var j := e.k;
    assert fit(pts, j) == Some(models[j - 2]);
    assert KScore(pts, j, fit, predict, silhouette) == silhouette(pts, predict(models[j - 2], pts));
    forall k: nat | 2 <= k < j
      ensures KScore(pts, k, fit, predict, silhouette).Some?
    {
      assert fit(pts, k) == Some(models[k - 2]);
      assert KScore(pts, k, fit, predict, silhouette) == silhouette(pts, predict(models[k - 2], pts));
    }
    ScoreFailureOutcome(pts, lengths, maxClusters, fit, predict, silhouette, j);
  }

  /** The computed scores are the scores of `2, 3, ..., maxClusters - 1`. */
  lemma ScoresAreKScores(pts: seq<Vector>, maxClusters: int, fit: Fit, predict: Predict, silhouette: Silhouette,
                         models: seq<KMeansModel>, scores: seq<real>)
    requires FitRange(pts, 2, maxClusters, fit) == Success(models)
    requires ScoreRange(pts, models, 2, predict, silhouette) == Success(scores)
    ensures |models| == |scores| && |scores| == (if maxClusters <= 2 then 0 else maxClusters - 2)
    ensures forall k: nat :: 2 <= k < maxClusters ==>
              fit(pts, k) == Some(models[k - 2]) && KScore(pts, k, fit, predict, silhouette) == Some(scores[k - 2])
  {
    ModelsAreFits(pts, maxClusters, fit, models);
  }

  /** The first maximal score picks the best `k`. */
  lemma FirstMaxIsBestK(pts: seq<Vector>, maxClusters: int, fit: Fit, predict: Predict, silhouette: Silhouette,
                        scores: seq<real>, best: nat)
    requires |scores| == maxClusters - 2 && best < |scores| && IsFirstMax(scores, best)
    requires forall k: nat :: 2 <= k < maxClusters ==> KScore(pts, k, fit, predict, silhouette) == Some(scores[k - 2])
    ensures IsBestK(pts, 2 + best, maxClusters, fit, predict, silhouette)
  {
    assert KScore(pts, 2 + best, fit, predict, silhouette) == Some(scores[best]);
  }

  /** `cluster_close_points`: fit k-means for every k in `[2, maxClusters)`,
      score each prediction, keep the first best-scoring model, and average
      the gap lengths per cluster of that model. */
  method ClusterClosePoints(pts: seq<Vector>, lengths: seq<real>, maxClusters: int,
                            fit: Fit, predict: Predict, silhouette: Silhouette)
      returns (r: Result<Clustering, Error>)
    requires |lengths| == |pts|
    requires forall k: nat :: 2 <= k < maxClusters && fit(pts, k).Some? ==> FitShape(fit(pts, k).value, k, |pts|)
    ensures ClusterOutcome(pts, lengths, maxClusters, fit, predict, silhouette, r)
  {
    var fitted := FitRange(pts, 2, maxClusters, fit);
    if fitted.Failure? {
      FitFailureOutcome(pts, lengths, maxClusters, fit, predict, silhouette, fitted.error.k);
      return Failure(fitted.error);
    }
    var models := fitted.value;
    var scored := ScoreRange(pts, models, 2, predict, silhouette);
    if scored.Failure? {
      ScoreRangeFailureOutcome(pts, lengths, maxClusters, fit, predict, silhouette, models, scored.error);
      return Failure(scored.error);
    }
    var scores := scored.value;
    if |scores| == 0 {
      ArgmaxFailureOutcome(pts, lengths, maxClusters, fit, predict, silhouette);
      return Failure(EmptyArgmax);
    }
    ScoresAreKScores(pts, maxClusters, fit, predict, silhouette, models, scores);
    var best := ArgMax(scores);
    FirstMaxIsBestK(pts, maxClusters, fit, predict, silhouette, scores, best);
    var bestModel := models[best];
    var k: nat := 2 + best;
    var avg := AvgClusterDistance(bestModel.nClusters, bestModel.labels, lengths);
    if avg.Failure? {
      EmptyClusterOutcome(pts, lengths, maxClusters, fit, predict, silhouette, k, avg.error.cluster);
      return Failure(avg.error);
    }
    SuccessfulOutcome(pts, lengths, maxClusters, fit, predict, silhouette, k, bestModel, avg.value);
    return Success(Clustering(k, bestModel.centers, avg.value));
  }

  // ---------------------------------------------------------------------
  // The whole analysis and the joint embedding
  // ---------------------------------------------------------------------

  /** The k-means contract for every input: what the library promises about
      the shape of a fitted model. */
  ghost predicate FitContract(fit: Fit)
  {
    forall pts: seq<Vector>, k: nat :: fit(pts, k).Some? ==> FitShape(fit(pts, k).value, k, |pts|)
  }

  /** `find_empty_space`: collect the gaps of the graph onto the lists already
      held, then cluster all of them. */
  method FindEmptySpace(g: Graph, maxClusters: int, dist: Metric, fit: Fit, predict: Predict, silhouette: Silhouette,
                        centers0: seq<Vector>, dists0: seq<real>)
      returns (centers: seq<Vector>, dists: seq<real>, r: Result<Clustering, Error>)
    requires EdgesInRange(g) && |centers0| == |dists0|
    requires FitContract(fit)
    ensures EdgesOf(g, EdgeList(g))
    ensures centers == centers0 + GapCenters(g, EdgeList(g))
    ensures dists == dists0 + GapLengths(g, EdgeList(g), dist)
    ensures ClusterOutcome(centers, dists, maxClusters, fit, predict, silhouette, r)
    ensures r.Success? ==> IsBestK(centers, r.value.k, maxClusters, fit, predict, silhouette)
                           && |r.value.ghostPoints| == |r.value.ghostPointAvgDist| == r.value.k
  {
    centers, dists := CollectGaps(g, dist, centers0, dists0);
    r := ClusterClosePoints(centers, dists, maxClusters, fit, predict, silhouette);
  }

  /** `scale`: embed data and ghost points together, then split the rows at
      the number of data rows (slicing clamps, as Python's does). */
  function Scale(data: seq<Vector>, ghostPoints: seq<Vector>, dimToScale: nat, embed: Embed)
    : (r: (seq<Vector>, seq<Vector>))
    ensures r.0 + r.1 == embed(data + ghostPoints, dimToScale)
    ensures |r.0| <= |data|
    ensures |embed(data + ghostPoints, dimToScale)| >= |data| ==> |r.0| == |data|
    ensures |embed(data + ghostPoints, dimToScale)| == |data| + |ghostPoints| ==> |r.1| == |ghostPoints|
    ensures |embed(data + ghostPoints, dimToScale)| < |data| ==> r.1 == []
  {
    var scaled := embed(data + ghostPoints, dimToScale);
    var cut := if |data| <= |scaled| then |data| else |scaled|;
    (scaled[..cut], scaled[cut..])
  }
}

=== FILE: emptyspace_theory.dfy ===
/** Properties of gap extraction, cluster selection, per-cluster averaging
    and the joint embedding, and the unit-square example. */
module EmptySpaceTheory {
  import opened Geometry
  import opened Gabriel
  import opened GabrielTheory
  import opened EmptySpace

  // ---------------------------------------------------------------------
  // One gap per stored edge
  // ---------------------------------------------------------------------

  /** The number of stored edges. */
  function EdgeCount(g: Graph): nat
  {
    if |g| == 0 then 0 else EdgeCount(g[..|g| - 1]) + |g[|g| - 1].edges|
  }

  /** The edge enumeration lists every stored edge, and lists each exactly
      once when no edge list repeats a target. */
  lemma {:induction false} EdgeListExact(g: Graph)
    ensures |EdgeList(g)| == EdgeCount(g)
    ensures forall i: nat, q: nat :: HasEdge(g, i, q) ==> (i, q) in EdgeList(g)
    ensures (forall i :: 0 <= i < |g| ==> Distinct(g[i].edges)) ==> Distinct(EdgeList(g))
    decreases |g|
  {
    if |g| > 0 {
      var m := |g| - 1;
      var init := g[..m];
      EdgeListExact(init);
      var front, back := EdgeList(init), OutEdges(m, g[m].edges);
      var es := EdgeList(g);
      assert es == front + back;
      forall i: nat, q: nat | HasEdge(g, i, q)
        ensures (i, q) in es
      {
        if i < m {
          assert init[i] == g[i];
          assert (i, q) in front;
        } else {
          var k :| 0 <= k < |g[m].edges| && g[m].edges[k] == q;
          assert back[k] == (i, q);
        }
      }
      if forall i :: 0 <= i < |g| ==> Distinct(g[i].edges) {
        assert forall i :: 0 <= i < |init| ==> init[i] == g[i];
        forall a, b | 0 <= a < b < |es|
          ensures es[a] != es[b]
        {
          if b >= |front| && a < |front| {
            assert HasEdge(init, es[a].0, es[a].1);
          }
        }
      }
    }
  }

  /** An edge of the Gabriel graph spans an empty sphere: both endpoints lie
      on the sphere whose diameter is the edge, and every other data point
      lies strictly outside it. */
  lemma GabrielEdgeIsEmptySphere(data: seq<Vector>, simplices: seq<seq<nat>>, i: nat, q: nat)
    requires Rectangular(data) && ValidSimplices(simplices, |data|)
    requires HasEdge(GenerateGabriel(data, simplices), i, q)
    ensures |GenerateGabriel(data, simplices)| == |data|
    ensures i < |data| && q < |data| && i != q
    ensures GenerateGabriel(data, simplices)[i].coordinates == data[i]
    ensures GenerateGabriel(data, simplices)[q].coordinates == data[q]
    ensures |Center(data[i], data[q])| == |data[i]|
    ensures SqDist(Center(data[i], data[q]), data[i]) == SqDist(data[i], data[q]) / 4.0
    ensures SqDist(Center(data[i], data[q]), data[q]) == SqDist(data[i], data[q]) / 4.0
    ensures forall r :: 0 <= r < |data| && r != i && r != q ==>
              SqDist(Center(data[i], data[q]), data[r]) > SqDist(data[i], data[q]) / 4.0
  {
    GabrielGraphOfSkeleton(data, simplices);
    assert GabrielValid(data, i, q);
    CenterEquidistant(data[i], data[q]);
    forall r | 0 <= r < |data| && r != i && r != q
      ensures SqDist(Center(data[i], data[q]), data[r]) > SqDist(data[i], data[q]) / 4.0
    {
      assert !Blocks(data, i, q, r);
    }
  }

  /** Every gap `find_empty_space` extracts from the Gabriel graph is the
      centre of an empty sphere: its edge's endpoints lie on the sphere and
      every other data point lies strictly outside it. */
  lemma GapCentersAreEmpty(data: seq<Vector>, simplices: seq<seq<nat>>, j: nat)
    requires Rectangular(data) && ValidSimplices(simplices, |data|)
    requires j < |EdgeList(GenerateGabriel(data, simplices))|
    ensures var g := GenerateGabriel(data, simplices);
      var e := EdgeList(g)[j];
      && e.0 < |data| && e.1 < |data|
      && EdgesOf(g, EdgeList(g))
      && var c := GapCenters(g, EdgeList(g))[j];
      && |c| == |data[e.0]|
      && SqDist(c, data[e.0]) == SqDist(data[e.0], data[e.1]) / 4.0
      && SqDist(c, data[e.1]) == SqDist(data[e.0], data[e.1]) / 4.0
      && forall r :: 0 <= r < |data| && r != e.0 && r != e.1 ==>
           SqDist(c, data[r]) > SqDist(data[e.0], data[e.1]) / 4.0
  {
    var g := GenerateGabriel(data, simplices);
    var es := EdgeList(g);
    var e := es[j];
    assert HasEdge(g, e.0, e.1);
    GabrielEdgeIsEmptySphere(data, simplices, e.0, e.1);
    forall k | 0 <= k < |es|
      ensures es[k].0 < |g| && es[k].1 < |g|
    {
      GabrielEdgeIsEmptySphere(data, simplices, es[k].0, es[k].1);
    }
    assert GapCenters(g, es)[j] == Center(data[e.0], data[e.1]);
  }

  /** `distance.euclidean`: the square root of the squared distance on every
      pair of the same dimension. */
  ghost predicate Euclidean(dist: Metric)
  {
    forall a: Vector, b: Vector {:trigger dist(a, b)} :: |a| == |b| ==> EuclideanOn(dist, a, b)
  }

  /** A non-negative number whose square is a quarter of `len`'s square
      `s` is half of `len`. */
  lemma HalfOfSquare(d: real, len: real, s: real)
    requires d >= 0.0 && len >= 0.0 && len * len == s && d * d == s / 4.0
    ensures d == len / 2.0
  {
    var h := len / 2.0;
    assert h * h == len * len / 4.0;
    if d < h {
      SquareStrictlyMonotone(d, h);
    } else if h < d {
      SquareStrictlyMonotone(h, d);
    }
  }

  /** A point whose squared distance from `c` is a quarter of the squared
      length of `a`-`b` lies at half that length, measured with a distance
      that is Euclidean on the two pairs. */
  lemma OnSphereByDistance(a: Vector, b: Vector, c: Vector, p: Vector, dist: Metric)
    requires |a| == |b| && |c| == |p|
    requires EuclideanOn(dist, a, b) && EuclideanOn(dist, c, p)
    requires SqDist(c, p) == SqDist(a, b) / 4.0
    ensures dist(c, p) == dist(a, b) / 2.0
  {
    HalfOfSquare(dist(c, p), dist(a, b), SqDist(a, b));
  }

  /** A point whose squared distance from `c` exceeds a quarter of the
      squared length of `a`-`b` lies farther than half that length. */
  lemma OutsideSphereByDistance(a: Vector, b: Vector, c: Vector, p: Vector, dist: Metric)
    requires |a| == |b| && |c| == |p|
    requires EuclideanOn(dist, a, b) && EuclideanOn(dist, c, p)
    requires SqDist(c, p) > SqDist(a, b) / 4.0
    ensures dist(c, p) > dist(a, b) / 2.0
  {
    SphereTestSquared(dist(c, p), dist(a, b));
  }

  /** The squared empty-sphere facts, read with a distance that is Euclidean
      on the pairs involved. */
  lemma EmptySphereByDistance(data: seq<Vector>, i: nat, q: nat, c: Vector, dist: Metric)
    requires Rectangular(data) && i < |data| && q < |data| && |c| == |data[i]|
    requires EuclideanOn(dist, data[i], data[q])
    requires forall r :: 0 <= r < |data| ==> EuclideanOn(dist, c, data[r])
    requires SqDist(c, data[i]) == SqDist(data[i], data[q]) / 4.0
    requires SqDist(c, data[q]) == SqDist(data[i], data[q]) / 4.0
    requires forall r :: 0 <= r < |data| && r != i && r != q ==> SqDist(c, data[r]) > SqDist(data[i], data[q]) / 4.0
    ensures dist(c, data[i]) == dist(data[i], data[q]) / 2.0 && dist(c, data[q]) == dist(data[i], data[q]) / 2.0
    ensures forall r :: 0 <= r < |data| && r != i && r != q ==> dist(c, data[r]) > dist(data[i], data[q]) / 2.0
  {
    OnSphereByDistance(data[i], data[q], c, data[i], dist);
    OnSphereByDistance(data[i], data[q], c, data[q], dist);
    forall r | 0 <= r < |data| && r != i && r != q
      ensures dist(c, data[r]) > dist(data[i], data[q]) / 2.0
    {
      OutsideSphereByDistance(data[i], data[q], c, data[r], dist);
    }
  }

  /** With the Euclidean distance, gap `j` that `find_empty_space` extracts
      from the Gabriel graph is the length of its edge: both endpoints lie at
      half that length from the gap's midpoint, and every other data point
      lies strictly farther away. */
  lemma GapLengthsMeasureEdges(data: seq<Vector>, simplices: seq<seq<nat>>, dist: Metric, j: nat)
    requires Rectangular(data) && ValidSimplices(simplices, |data|)
    requires Euclidean(dist)
    requires j < |EdgeList(GenerateGabriel(data, simplices))|
    ensures var g := GenerateGabriel(data, simplices);
      var e := EdgeList(g)[j];
      && e.0 < |data| && e.1 < |data|
      && EdgesOf(g, EdgeList(g))
      && var c := GapCenters(g, EdgeList(g))[j];
      && var a, b := data[e.0], data[e.1];
      && GapLengths(g, EdgeList(g), dist)[j] == dist(a, b)
      && |a| == |b| && EuclideanOn(dist, a, b)
      && dist(c, a) == dist(a, b) / 2.0 && dist(c, b) == dist(a, b) / 2.0
      && forall r :: 0 <= r < |data| && r != e.0 && r != e.1 ==> dist(c, data[r]) > dist(a, b) / 2.0
  {
    var g := GenerateGabriel(data, simplices);
    var es := EdgeList(g);
    var e := es[j];
    GapCentersAreEmpty(data, simplices, j);
    var c := GapCenters(g, es)[j];
    // Naming each distance instantiates `Euclidean` on that pair.
    forall r | 0 <= r < |data|
      ensures EuclideanOn(dist, c, data[r])
    {
      assert |c| == |data[r]|;
      assert dist(c, data[r]) == dist(c, data[r]);
    }
    assert dist(data[e.0], data[e.1]) == dist(data[e.0], data[e.1]);
    EmptySphereByDistance(data, e.0, e.1, c, dist);
  }

  // ---------------------------------------------------------------------
  // Choosing k
  // ---------------------------------------------------------------------

  /** The first maximum is unique, so `ArgMax` is the only index with that
      property; among equal best scores the earliest wins. */
  lemma ArgMaxIsTheFirstMax(scores: seq<real>, idx: nat)
    requires idx < |scores|
    ensures IsFirstMax(scores, idx) <==> idx == ArgMax(scores)
  {
  }

  // ---------------------------------------------------------------------
  // Per-cluster averages
  // ---------------------------------------------------------------------

  /** The member counts of clusters `0 .. k - 1`, added up. */
  function SumCounts(labels: seq<nat>, k: nat): nat
  {
    if k == 0 then 0 else SumCounts(labels, k - 1) + Count(labels, k - 1)
  }

  /** The length sums of clusters `0 .. k - 1`, added up. */
  function SumLabelSums(labels: seq<nat>, lengths: seq<real>, k: nat): real
    requires |labels| == |lengths|
  {
    if k == 0 then 0.0 else SumLabelSums(labels, lengths, k - 1) + LabelSum(labels, lengths, k - 1)
  }

  /** The sum of all lengths. */
  function Total(lengths: seq<real>): real
  {
    if |lengths| == 0 then 0.0 else Total(lengths[..|lengths| - 1]) + lengths[|lengths| - 1]
  }

  lemma {:induction false} SumCountsAppend(s: seq<nat>, x: nat, k: nat)
    ensures SumCounts(s + [x], k) == SumCounts(s, k) + (if x < k then 1 else 0)
    decreases k
  {
    if k > 0 {
      SumCountsAppend(s, x, k - 1);
      assert (s + [x])[..|s|] == s;
    }
  }

  /** When every label names one of `k` clusters, the member counts add up
      to the number of gap points. */
  lemma {:induction false} CountsSumToTotal(labels: seq<nat>, k: nat)
    requires forall j :: 0 <= j < |labels| ==> labels[j] < k
    ensures SumCounts(labels, k) == |labels|
    decreases |labels|
  {
    if |labels| > 0 {
      var n := |labels| - 1;
      var init := labels[..n];
      assert init + [labels[n]] == labels;
      CountsSumToTotal(init, k);
      SumCountsAppend(init, labels[n], k);
    } else {
      NoLabelsNoCounts(labels, k);
    }
  }

  /** With no labels every cluster is empty: by induction on `k`. */
  lemma NoLabelsNoCounts(labels: seq<nat>, k: nat)
    requires |labels| == 0
    ensures SumCounts(labels, k) == 0
  {
  }

  lemma {:induction false} SumLabelSumsAppend(s: seq<nat>, ls: seq<real>, x: nat, l: real, k: nat)
    requires |s| == |ls|
    ensures SumLabelSums(s + [x], ls + [l], k) == SumLabelSums(s, ls, k) + (if x < k then l else 0.0)
    decreases k
  {
    if k > 0 {
      SumLabelSumsAppend(s, ls, x, l, k - 1);
      assert (s + [x])[..|s|] == s && (ls + [l])[..|ls|] == ls;
    }
  }

  /** When every label names one of `k` clusters, no length is lost or
      counted twice: the per-cluster sums add up to the sum of all lengths. */
  lemma {:induction false} LabelSumsSumToTotal(labels: seq<nat>, lengths: seq<real>, k: nat)
    requires |labels| == |lengths|
    requires forall j :: 0 <= j < |labels| ==> labels[j] < k
    ensures SumLabelSums(labels, lengths, k) == Total(lengths)
    decreases |labels|
  {
    if |labels| > 0 {
      var n := |labels| - 1;
      var init, linit := labels[..n], lengths[..n];
      assert init + [labels[n]] == labels && linit + [lengths[n]] == lengths;
      LabelSumsSumToTotal(init, linit, k);
      SumLabelSumsAppend(init, linit, labels[n], lengths[n], k);
    } else {
      NoLabelsNoSums(labels, lengths, k);
    }
  }

  /** With no labels every cluster sums to zero: by induction on `k`. */
  lemma NoLabelsNoSums(labels: seq<nat>, lengths: seq<real>, k: nat)
    requires |labels| == 0 && |lengths| == 0
    ensures SumLabelSums(labels, lengths, k) == 0.0
  {
  }

  // ---------------------------------------------------------------------
  // The joint embedding
  // ---------------------------------------------------------------------

  /** When the embedding keeps one row per input row, row `j` of the first
      part is the embedded data row `j` and row `j` of the second part is the
      embedded ghost point `j`. */
  lemma ScaleRowsCorrespond(data: seq<Vector>, ghostPoints: seq<Vector>, dimToScale: nat, embed: Embed)
    requires |embed(data + ghostPoints, dimToScale)| == |data| + |ghostPoints|
    ensures var r := Scale(data, ghostPoints, dimToScale, embed);
      var all := embed(data + ghostPoints, dimToScale);
      && |r.0| == |data| && |r.1| == |ghostPoints|
      && (forall j :: 0 <= j < |data| ==> r.0[j] == all[j])
      && (forall j :: 0 <= j < |ghostPoints| ==> r.1[j] == all[|data| + j])
  {
    var r := Scale(data, ghostPoints, dimToScale, embed);
    var all := embed(data + ghostPoints, dimToScale);
    assert r.0 + r.1 == all;
    forall j | 0 <= j < |ghostPoints|
      ensures r.1[j] == all[|data| + j]
    {
      assert all[|data| + j] == (r.0 + r.1)[|r.0| + j];
    }
  }

  /** Splitting undoes concatenation: with an embedding that changes nothing,
      `scale` returns the data and the ghost points unchanged. */
  lemma ScaleSplitsConcatenation(data: seq<Vector>, ghostPoints: seq<Vector>, dimToScale: nat)
    ensures Scale(data, ghostPoints, dimToScale, (pts: seq<Vector>, d: nat) => pts) == (data, ghostPoints)
  {
    var r := Scale(data, ghostPoints, dimToScale, (pts: seq<Vector>, d: nat) => pts);
    assert r.0 + r.1 == data + ghostPoints;
    assert r.0 == (data + ghostPoints)[..|data|] == data;
    assert r.1 == (data + ghostPoints)[|data|..] == ghostPoints;
  }

  // ---------------------------------------------------------------------
  // The unit square
  // ---------------------------------------------------------------------

  function UnitSquare(): seq<Vector>
  {
    [[0.0, 0.0], [1.0, 0.0], [0.0, 1.0], [1.0, 1.0]]
  }

  /** A triangulation of the unit square that uses the diagonal from
      (0, 0) to (1, 1). */
  function UnitSquareSimplices(): seq<seq<nat>>
  {
    [[3, 1, 0], [2, 3, 0]]
  }

  /** A distinct skeleton pair of a triangulation is linked in the Gabriel
      graph exactly when it passes the sphere test. */
  lemma SkeletonPairLinkedIff(data: seq<Vector>, simplices: seq<seq<nat>>, x: nat, y: nat)
    requires Rectangular(data) && ValidSimplices(simplices, |data|)
    requires x != y && x < |data| && y < |data| && SkeletonPair(simplices, x, y)
    ensures Linked(GenerateGabriel(data, simplices), x, y) <==> GabrielValid(data, x, y)
  {
    GabrielGraphOfSkeleton(data, simplices);
  }

  /** With the `<=` boundary convention the two other corners lie exactly
      on the sphere over the diagonal, so the diagonal is pruned and the
      four sides survive. */
  lemma UnitSquareDropsDiagonal(data: seq<Vector>, simplices: seq<seq<nat>>)
    requires data == UnitSquare() && simplices == UnitSquareSimplices()
    ensures Rectangular(data) && ValidSimplices(simplices, |data|)
    ensures var g := GenerateGabriel(data, simplices);
      && !Linked(g, 0, 3)
      && Linked(g, 0, 1) && Linked(g, 1, 3) && Linked(g, 2, 3) && Linked(g, 0, 2)
  {
    UnitSquareSkeleton(simplices);
    UnitSquareGeometry(data);
    SkeletonPairLinkedIff(data, simplices, 3, 0);
    SkeletonPairLinkedIff(data, simplices, 3, 1);
    SkeletonPairLinkedIff(data, simplices, 1, 0);
    SkeletonPairLinkedIff(data, simplices, 2, 3);
    SkeletonPairLinkedIff(data, simplices, 2, 0);
  }

  /** The two triangles offer the diagonal and the four sides. */
  lemma UnitSquareSkeleton(simplices: seq<seq<nat>>)
    requires simplices == UnitSquareSimplices()
    ensures ValidSimplices(simplices, 4)
    ensures SkeletonPair(simplices, 3, 0) && SkeletonPair(simplices, 3, 1) && SkeletonPair(simplices, 1, 0)
    ensures SkeletonPair(simplices, 2, 3) && SkeletonPair(simplices, 2, 0)
  {
    var s0, s1 := simplices[0], simplices[1];
    assert s0[0] == 3 && s0[1] == 1 && s0[2] == 0;
    assert s1[0] == 2 && s1[1] == 3 && s1[2] == 0;
    assert OrderedPair(s0, 3, 1) && OrderedPair(s0, 3, 0) && OrderedPair(s0, 1, 0);
    assert OrderedPair(s1, 2, 3) && OrderedPair(s1, 2, 0);
  }

  /** The diagonal fails the sphere test and the four sides pass it. */
  lemma UnitSquareGeometry(data: seq<Vector>)
    requires data == UnitSquare()
    ensures Rectangular(data) && |data| == 4
    ensures !GabrielValid(data, 3, 0)
    ensures GabrielValid(data, 3, 1) && GabrielValid(data, 1, 0) && GabrielValid(data, 2, 3) && GabrielValid(data, 2, 0)
  {
    DiagonalIsBlocked(data);
    SideIsGabrielValid(data, 3, 1, 2, 0);
    SideIsGabrielValid(data, 1, 0, 2, 3);
    SideIsGabrielValid(data, 2, 3, 0, 1);
    SideIsGabrielValid(data, 2, 0, 1, 3);
  }

  /** The corner (1, 0) lies exactly on the sphere over the diagonal from
      (1, 1) to (0, 0), which the `<=` comparison counts as blocking. */
  lemma DiagonalIsBlocked(data: seq<Vector>)
    requires data == UnitSquare()
    ensures Rectangular(data)
    ensures SqDist(Center(data[3], data[0]), data[1]) == SqDist(data[3], data[0]) / 4.0
    ensures Blocks(data, 3, 0, 1)
    ensures !GabrielValid(data, 3, 0)
  {
    assert Rectangular(data);
    var c := Center(data[3], data[0]);
    assert c == [0.5, 0.5];
    assert SqDist(data[3], data[0]) == 2.0;
    assert SqDist(c, data[1]) == 0.5;
    assert Blocks(data, 3, 0, 1);
  }

  /** A side `i -> q` of the unit square, whose other corners are `a` and
      `b`, passes the sphere test. */
  lemma SideIsGabrielValid(data: seq<Vector>, i: nat, q: nat, a: nat, b: nat)
    requires data == UnitSquare()
    requires (i, q, a, b) in [(3, 1, 2, 0), (1, 0, 2, 3), (2, 3, 0, 1), (2, 0, 1, 3)]
    ensures Rectangular(data) && GabrielValid(data, i, q)
  {
    assert Rectangular(data);
    var c := Center(data[i], data[q]);
    if i == 3 {
      assert c == [1.0, 0.5];
    } else if i == 1 {
      assert c == [0.5, 0.0];
    } else if q == 3 {
      assert c == [0.5, 1.0];
    } else {
      assert c == [0.0, 0.5];
    }
    PlanarSqDist(data[i], data[q]);
    PlanarSqDist(c, data[a]);
    PlanarSqDist(c, data[b]);
    assert SqDist(c, data[a]) > SqDist(data[i], data[q]) / 4.0;
    assert SqDist(c, data[b]) > SqDist(data[i], data[q]) / 4.0;
    forall r | 0 <= r < |data|
      ensures !Blocks(data, i, q, r)
    {
      assert r == i || r == q || r == a || r == b;
    }
  }

  /** The squared distance of two points in the plane. */
  lemma PlanarSqDist(u: Vector, v: Vector)
    requires |u| == 2 && |v| == 2
    ensures SqDist(u, v) == (u[0] - v[0]) * (u[0] - v[0]) + (u[1] - v[1]) * (u[1] - v[1])
  {
    assert SqDist(u[1..][1..], v[1..][1..]) == 0.0;
  }
}

=== FILE: gabriel.dfy ===
/** The Gabriel graph of a point set (emptySpace/gabriel.py).

    The graph starts as the 1-skeleton of a triangulation, stored as
    one-directional adjacency lists, and is then pruned in two phases: every
    edge that fails the empty-diametral-sphere test is marked, and only
    afterwards are the marked edges filtered out of the lists.

    A point is referred to by its position in the point list; `gabriel.py`
    compares point objects by identity, which is the same as comparing
    positions. The triangulation is an input: a sequence of simplices, each a
    sequence of point indices. */
module Gabriel {
  import opened Wrappers
  import opened Geometry

  /** One data row: its id, its coordinates, the points its outgoing edges
      lead to, and the table that marks edges scheduled for removal. */
  datatype Point = Point(pId: nat, coordinates: Vector, edges: seq<nat>, removedEdges: map<nat, bool>)

  /** The point graph: entry `i` stands for data row `i`. */
  type Graph = seq<Point>

  function NewPoint(pId: nat, coordinates: Vector): Point
  {
    Point(pId, coordinates, [], map[])
  }

  /** The coordinates of every point, in list order. */
  function Coordinates(g: Graph): seq<Vector>
  {
    seq(|g|, j requires 0 <= j < |g| => g[j].coordinates)
  }

  // ---------------------------------------------------------------------
  // Single points: adding and marking edges
  // ---------------------------------------------------------------------

  /** The targets `add_edge` appends: the single point when only it is given,
      the whole list when only the list is given, nothing otherwise. */
  function Added(point: Option<nat>, pointList: Option<seq<nat>>): seq<nat>
  {
    match (point, pointList)
    case (Some(q), None) => [q]
    case (None, Some(qs)) => qs
    case _ => []
  }

  /** Appends each target in order and records it as not removed. */
  function AppendEdges(p: Point, targets: seq<nat>): (r: Point)
    ensures r.pId == p.pId && r.coordinates == p.coordinates
    ensures r.edges == p.edges + targets
    ensures r.removedEdges.Keys == p.removedEdges.Keys + set q | q in targets
    ensures forall q :: q in targets ==> !r.removedEdges[q]
    ensures forall q :: q in p.removedEdges && q !in targets ==> r.removedEdges[q] == p.removedEdges[q]
    decreases |targets|
  {
    if |targets| == 0 then p
    else
      var q := targets[0];
      AppendEdges(p.(edges := p.edges + [q], removedEdges := p.removedEdges[q := false]), targets[1..])
  }

  /** `add_edge`: appends the given point or list of points to the edge list
      and marks each appended target as not removed; with both arguments or
      neither it changes nothing. */
  function AddEdge(p: Point, point: Option<nat>, pointList: Option<seq<nat>>): (r: Point)
    ensures r.pId == p.pId && r.coordinates == p.coordinates
    ensures point.Some? && pointList.None? ==> r.edges == p.edges + [point.value]
    ensures point.None? && pointList.Some? ==> r.edges == p.edges + pointList.value
    ensures point.Some? == pointList.Some? ==> r == p
    ensures forall q :: q in Added(point, pointList) ==> q in r.removedEdges && !r.removedEdges[q]
    ensures forall q :: q in r.removedEdges <==> q in p.removedEdges || q in Added(point, pointList)
    ensures forall q :: q in p.removedEdges && q !in Added(point, pointList) ==> r.removedEdges[q] == p.removedEdges[q]
  {
    if point.Some? == pointList.Some? then p else AppendEdges(p, Added(point, pointList))
  }

  /** `remove_edge`: only marks the edge; the edge list is left alone. */
  function RemoveEdge(p: Point, toRemove: nat): (r: Point)
    ensures r.pId == p.pId && r.coordinates == p.coordinates && r.edges == p.edges
    ensures toRemove in r.removedEdges && r.removedEdges[toRemove]
    ensures forall q :: q != toRemove ==> (q in r.removedEdges <==> q in p.removedEdges)
    ensures forall q :: q != toRemove && q in p.removedEdges ==> r.removedEdges[q] == p.removedEdges[q]
  {
    p.(removedEdges := p.removedEdges[toRemove := true])
  }

  // ---------------------------------------------------------------------
  // Graph invariants
  // ---------------------------------------------------------------------

  /** The graph stores the edge from `i` to `q`. */
  predicate HasEdge(g: Graph, i: nat, q: nat)
  {
    i < |g| && q in g[i].edges
  }

  /** `a` and `b` are joined in one direction or the other. */
  predicate Linked(g: Graph, a: nat, b: nat)
  {
    HasEdge(g, a, b) || HasEdge(g, b, a)
  }

  predicate IdsMatchIndex(g: Graph)
  {
    forall i :: 0 <= i < |g| ==> g[i].pId == i
  }

  predicate EdgesInRange(g: Graph)
  {
    forall i, q :: 0 <= i < |g| && q in g[i].edges ==> q < |g|
  }

  predicate NoSelfLoops(g: Graph)
  {
    forall i :: 0 <= i < |g| ==> i !in g[i].edges
  }

  /** No element occurs twice. */
  predicate Distinct<T(==)>(s: seq<T>)
  {
    forall a, b :: 0 <= a < b < |s| ==> s[a] != s[b]
  }

  /** At most one stored edge per unordered pair: never both directions and
      never the same direction twice. */
  predicate NoDuplicateEdges(g: Graph)
  {
    && (forall i, q :: 0 <= i < |g| && 0 <= q < |g| && q in g[i].edges ==> i !in g[q].edges)
    && (forall i :: 0 <= i < |g| ==> Distinct(g[i].edges))
  }

  /** The mark table holds exactly the point's edges, none marked. */
  ghost predicate Unmarked(p: Point)
  {
    && (forall q :: q in p.removedEdges <==> q in p.edges)
    && (forall q :: q in p.removedEdges ==> !p.removedEdges[q])
  }

  /** What holds of the graph at every step of its construction. */
  ghost predicate WellBuilt(g: Graph)
  {
    && IdsMatchIndex(g)
    && EdgesInRange(g)
    && NoSelfLoops(g)
    && NoDuplicateEdges(g)
    && (forall i :: 0 <= i < |g| ==> Unmarked(g[i]))
  }

  // ---------------------------------------------------------------------
  // Construction from a triangulation
  // ---------------------------------------------------------------------

  /** Every index of every simplex names a data row. */
  predicate ValidSimplices(simplices: seq<seq<nat>>, n: nat)
  {
    forall j, k :: 0 <= j < |simplices| && 0 <= k < |simplices[j]| ==> simplices[j][k] < n
  }

  predicate PairsInRange(ps: seq<(nat, nat)>, n: nat)
  {
    forall j :: 0 <= j < |ps| ==> ps[j].0 < n && ps[j].1 < n
  }

  /** `y` comes after `x` in the simplex `s`. */
  predicate OrderedPair(s: seq<nat>, x: nat, y: nat)
  {
    exists a, b :: 0 <= a < b < |s| && s[a] == x && s[b] == y
  }

  /** `y` comes after `x` in some simplex of the triangulation. */
  predicate SkeletonPair(simplices: seq<seq<nat>>, x: nat, y: nat)
  {
    exists j :: 0 <= j < |simplices| && OrderedPair(simplices[j], x, y)
  }

  /** One node per data row, no edges yet. */
  function InitialGraph(data: seq<Vector>): (g: Graph)
    ensures |g| == |data| && WellBuilt(g)
    ensures forall i :: 0 <= i < |g| ==> g[i].pId == i && g[i].coordinates == data[i] && g[i].edges == []
  {
    seq(|data|, i requires 0 <= i < |data| => NewPoint(i, data[i]))
  }

  /** The pairs one simplex offers, in the order the nested loops visit them:
      each member with every member after it. */
  function PairList(s: seq<nat>): seq<(nat, nat)>
    decreases |s|
  {
    if |s| == 0 then []
    else seq(|s| - 1, k requires 0 <= k < |s| - 1 => (s[0], s[k + 1])) + PairList(s[1..])
  }

  /** The pairs of all simplices, simplex by simplex. */
  function SimplexPairs(simplices: seq<seq<nat>>): seq<(nat, nat)>
    decreases |simplices|
  {
    if |simplices| == 0 then []
    else SimplexPairs(simplices[..|simplices| - 1]) + PairList(simplices[|simplices| - 1])
  }

  lemma {:induction false} PairListInRange(s: seq<nat>, n: nat)
    requires forall k :: 0 <= k < |s| ==> s[k] < n
    ensures PairsInRange(PairList(s), n)
    decreases |s|
  {
    if |s| > 0 {
      PairListInRange(s[1..], n);
    }
  }

  lemma {:induction false} SimplexPairsInRange(simplices: seq<seq<nat>>, n: nat)
    requires ValidSimplices(simplices, n)
    ensures PairsInRange(SimplexPairs(simplices), n)
    decreases |simplices|
  {
    if |simplices| > 0 {
      var m := |simplices| - 1;
      SimplexPairsInRange(simplices[..m], n);
      PairListInRange(simplices[m], n);
    }
  }

  /** One step of the construction: the edge `a -> b` is added unless the
      pair is already linked in either direction or `a == b`. */
  function AddPair(g: Graph, a: nat, b: nat): (r: Graph)
    requires a < |g| && b < |g|
    ensures |r| == |g|
    ensures forall i :: 0 <= i < |g| ==> r[i].pId == g[i].pId && r[i].coordinates == g[i].coordinates
    ensures forall i: nat, q: nat :: HasEdge(g, i, q) ==> HasEdge(r, i, q)
    ensures forall i: nat, q: nat :: HasEdge(r, i, q) ==> HasEdge(g, i, q) || (i == a && q == b)
    ensures a != b ==> Linked(r, a, b)
  {
    if HasEdge(g, a, b) || HasEdge(g, b, a) then g
    else if a != b then g[a := AddEdge(g[a], Some(b), None)]
    else g
  }

  /** A construction step keeps ids, ranges, the absence of self-loops and
      duplicates, and the all-unmarked table. */
  lemma AddPairKeepsWellBuilt(g: Graph, a: nat, b: nat)
    requires a < |g| && b < |g| && WellBuilt(g)
    ensures WellBuilt(AddPair(g, a, b))
  {
    if !(HasEdge(g, a, b) || HasEdge(g, b, a)) && a != b {
      var p := AddEdge(g[a], Some(b), None);
      var r := g[a := p];
      assert r == AddPair(g, a, b);
      assert p.edges == g[a].edges + [b];
      assert forall i, q :: 0 <= i < |r| && q in r[i].edges ==> q in g[i].edges || (i == a && q == b);
      assert EdgesInRange(r);
      assert NoSelfLoops(r);
      forall i, q | 0 <= i < |r| && 0 <= q < |r| && q in r[i].edges
        ensures i !in r[q].edges
      {
        if i == a && q == b {
          assert a !in g[b].edges;
        } else {
          assert q in g[i].edges;
          assert i !in g[q].edges;
        }
      }
      forall i | 0 <= i < |r|
        ensures Distinct(r[i].edges)
      {
        if i == a {
          assert Distinct(g[a].edges) && b !in g[a].edges;
        }
      }
      assert NoDuplicateEdges(r);
      forall i | 0 <= i < |r|
        ensures Unmarked(r[i])
      {
        if i == a {
          assert Unmarked(g[a]);
        }
      }
    }
  }

  /** The construction steps for a sequence of pairs, first pair first: edges
      are only ever added, each added edge comes from a pair, and every pair
      with distinct members ends up linked. */
  function AddPairs(g: Graph, ps: seq<(nat, nat)>): (r: Graph)
    requires PairsInRange(ps, |g|)
    ensures |r| == |g|
    ensures forall i :: 0 <= i < |g| ==> r[i].pId == g[i].pId && r[i].coordinates == g[i].coordinates
    ensures forall i: nat, q: nat :: HasEdge(g, i, q) ==> HasEdge(r, i, q)
    ensures forall i: nat, q: nat :: HasEdge(r, i, q) ==> HasEdge(g, i, q) || (i, q) in ps
    ensures forall j :: 0 <= j < |ps| && ps[j].0 != ps[j].1 ==> Linked(r, ps[j].0, ps[j].1)
    decreases |ps|
  {
    if |ps| == 0 then g
    else
      var prefix, last := ps[..|ps| - 1], ps[|ps| - 1];
      var mid := AddPairs(g, prefix);
      var r := AddPair(mid, last.0, last.1);
      assert forall x :: x in prefix ==> x in ps;
      assert forall j :: 0 <= j < |prefix| ==> prefix[j] == ps[j];
      r
  }

  lemma {:induction false} AddPairsKeepsWellBuilt(g: Graph, ps: seq<(nat, nat)>)
    requires WellBuilt(g) && PairsInRange(ps, |g|)
    ensures WellBuilt(AddPairs(g, ps))
    decreases |ps|
  {
    if |ps| > 0 {
      var prefix, last := ps[..|ps| - 1], ps[|ps| - 1];
      AddPairsKeepsWellBuilt(g, prefix);
      AddPairKeepsWellBuilt(AddPairs(g, prefix), last.0, last.1);
    }
  }

  /** `__generate_point_graph`: one point per data row, then the
      deduplicated 1-skeleton of the triangulation. */
  function GeneratePointGraph(data: seq<Vector>, simplices: seq<seq<nat>>): (g: Graph)
    requires ValidSimplices(simplices, |data|)
    ensures |g| == |data| && WellBuilt(g)
    ensures forall i :: 0 <= i < |g| ==> g[i].pId == i && g[i].coordinates == data[i]
  {
    SimplexPairsInRange(simplices, |data|);
    AddPairsKeepsWellBuilt(InitialGraph(data), SimplexPairs(simplices));
    AddPairs(InitialGraph(data), SimplexPairs(simplices))
  }

  // ---------------------------------------------------------------------
  // The empty-diametral-sphere test
  // ---------------------------------------------------------------------

  /** Point `r` is neither endpoint and lies inside or ON the sphere whose
      diameter is the segment from `i` to `q`. */
  predicate Blocks(pts: seq<Vector>, i: nat, q: nat, r: nat)
    requires Rectangular(pts) && i < |pts| && q < |pts| && r < |pts|
  {
    r != i && r != q && SqDist(Center(pts[i], pts[q]), pts[r]) <= SqDist(pts[i], pts[q]) / 4.0
  }

  /** The edge from `i` to `q` is a Gabriel edge: no other point blocks it. */
  predicate GabrielValid(pts: seq<Vector>, i: nat, q: nat)
    requires Rectangular(pts) && i < |pts| && q < |pts|
  {
    forall r :: 0 <= r < |pts| ==> !Blocks(pts, i, q, r)
  }

  /** The scan of `__is_valid_edge` from point `r` on: the first blocking
      point ends it with `false`. */
  function ScanFrom(pts: seq<Vector>, i: nat, q: nat, center: Vector, bound: real, r: nat): (valid: bool)
    requires Rectangular(pts) && i < |pts| && q < |pts| && r <= |pts|
    requires center == Center(pts[i], pts[q]) && bound == SqDist(pts[i], pts[q]) / 4.0
    ensures valid <==> forall t :: r <= t < |pts| ==> !Blocks(pts, i, q, t)
    decreases |pts| - r
  {
    if r == |pts| then true
    else if r != i && r != q && SqDist(center, pts[r]) <= bound then
      assert Blocks(pts, i, q, r);
      false
    else ScanFrom(pts, i, q, center, bound, r + 1)
  }

  /** `__is_valid_edge`, with distances compared in squared form. */
  function IsValidEdge(pts: seq<Vector>, i: nat, q: nat): (valid: bool)
    requires Rectangular(pts) && i < |pts| && q < |pts|
    ensures valid <==> GabrielValid(pts, i, q)
  {
    var center := Center(pts[i], pts[q]);
    var bound := SqDist(pts[i], pts[q]) / 4.0;
    ScanFrom(pts, i, q, center, bound, 0)
  }

  // ---------------------------------------------------------------------
  // Mark, then sweep
  // ---------------------------------------------------------------------

  /** The inner loop of `__prune_edges` for point `i`: every target that
      fails the sphere test is marked, in list order. */
  function MarkInvalid(p: Point, i: nat, targets: seq<nat>, pts: seq<Vector>): (r: Point)
    requires Rectangular(pts) && i < |pts|
    requires forall q :: q in targets ==> q < |pts|
    ensures r.pId == p.pId && r.coordinates == p.coordinates && r.edges == p.edges
    ensures r.removedEdges.Keys == p.removedEdges.Keys + set q | q in targets && !GabrielValid(pts, i, q)
    ensures forall q :: q in r.removedEdges ==>
              (r.removedEdges[q] <==> (q in targets && !GabrielValid(pts, i, q)) || (q in p.removedEdges && p.removedEdges[q]))
    decreases |targets|
  {
    if |targets| == 0 then p
    else
      var q := targets[0];
      assert q in targets;
      assert forall t :: t in targets <==> t == q || t in targets[1..];
      var p' := if IsValidEdge(pts, i, q) then p else RemoveEdge(p, q);
      assert p'.removedEdges.Keys == p.removedEdges.Keys + (if IsValidEdge(pts, i, q) then {} else {q});
      MarkInvalid(p', i, targets[1..], pts)
  }

  /** The outer loop of `__prune_edges` from point `i` on. Each step reads the
      coordinates of the graph as it stands, which marking never changes. */
  function PruneFrom(g: Graph, i: nat): (r: Graph)
    requires i <= |g| && Rectangular(Coordinates(g)) && EdgesInRange(g)
    ensures |r| == |g| && Coordinates(r) == Coordinates(g)
    ensures forall j :: 0 <= j < i ==> r[j] == g[j]
    ensures forall j :: i <= j < |g| ==> r[j] == MarkInvalid(g[j], j, g[j].edges, Coordinates(g))
    decreases |g| - i
  {
    if i == |g| then g
    else
      var g' := g[i := MarkInvalid(g[i], i, g[i].edges, Coordinates(g))];
      assert Coordinates(g') == Coordinates(g);
      PruneFrom(g', i + 1)
  }

  /** `__prune_edges`: every point's targets are marked against the
      coordinates of the graph as built; nothing but the marks changes. */
  function PruneEdges(g: Graph): (r: Graph)
    requires Rectangular(Coordinates(g)) && EdgesInRange(g)
    ensures |r| == |g| && Coordinates(r) == Coordinates(g)
    ensures forall j :: 0 <= j < |g| ==> r[j] == MarkInvalid(g[j], j, g[j].edges, Coordinates(g))
  {
    PruneFrom(g, 0)
  }

  /** `a` keeps the order of the elements of `b` it retains. */
  predicate IsSubsequence(a: seq<nat>, b: seq<nat>)
    decreases |b|
  {
    if |a| == 0 then true
    else if |b| == 0 then false
    else (a[0] == b[0] && IsSubsequence(a[1..], b[1..])) || IsSubsequence(a, b[1..])
  }

  /** The list comprehension of `__remove_edges`: the unmarked edges, in order. */
  function KeepUnmarked(edges: seq<nat>, removed: map<nat, bool>): (kept: seq<nat>)
    requires forall q :: q in edges ==> q in removed
    ensures forall q :: q in kept <==> q in edges && !removed[q]
    ensures IsSubsequence(kept, edges)
    ensures forall q :: q in edges ==> multiset(kept)[q] == if removed[q] then 0 else multiset(edges)[q]
    decreases |edges|
  {
    if |edges| == 0 then []
    else
      var rest := KeepUnmarked(edges[1..], removed);
      assert edges == [edges[0]] + edges[1..];
      if removed[edges[0]] then
        rest
      else
        var kept := [edges[0]] + rest;
        assert kept[1..] == rest;
        kept
  }

  /** `__remove_edges`: every edge list loses exactly its marked edges. */
  function RemoveEdges(g: Graph): (r: Graph)
    requires forall i, q :: 0 <= i < |g| && q in g[i].edges ==> q in g[i].removedEdges
    ensures |r| == |g|
    ensures forall i :: 0 <= i < |g| ==>
              r[i].pId == g[i].pId && r[i].coordinates == g[i].coordinates && r[i].removedEdges == g[i].removedEdges
    ensures forall i :: 0 <= i < |g| ==> IsSubsequence(r[i].edges, g[i].edges)
    ensures forall i, q :: 0 <= i < |g| ==> (q in r[i].edges <==> q in g[i].edges && !g[i].removedEdges[q])
    ensures forall i, q :: 0 <= i < |g| && q in g[i].edges ==>
              multiset(r[i].edges)[q] == if g[i].removedEdges[q] then 0 else multiset(g[i].edges)[q]
  {
    seq(|g|, i requires 0 <= i < |g| => g[i].(edges := KeepUnmarked(g[i].edges, g[i].removedEdges)))
  }

  /** Marking and then sweeping a freshly built graph keeps exactly the
      edges that pass the sphere test, and only changes edge lists. */
  lemma MarkThenSweep(built: Graph, data: seq<Vector>)
    requires Rectangular(data) && Coordinates(built) == data && WellBuilt(built)
    ensures forall i, q :: 0 <= i < |PruneEdges(built)| && q in PruneEdges(built)[i].edges ==>
              q in PruneEdges(built)[i].removedEdges
    ensures var g := RemoveEdges(PruneEdges(built));
      && |g| == |built|
      && (forall i :: 0 <= i < |g| ==> g[i].pId == built[i].pId && g[i].coordinates == built[i].coordinates)
      && forall i: nat, q: nat :: HasEdge(g, i, q) <==> HasEdge(built, i, q) && q < |data| && GabrielValid(data, i, q)
  {
    var marked := PruneEdges(built);
    forall i, q | 0 <= i < |marked| && q in marked[i].edges
      ensures q in marked[i].removedEdges
    {
      assert Unmarked(built[i]);
    }
    var g := RemoveEdges(marked);
    forall i: nat, q: nat
      ensures HasEdge(g, i, q) <==> HasEdge(built, i, q) && q < |data| && GabrielValid(data, i, q)
    {
      if i < |built| {
        var p := built[i];
        assert Unmarked(p);
        assert marked[i] == MarkInvalid(p, i, p.edges, data);
        if q in p.edges {
          assert q < |data|;
          assert q in marked[i].removedEdges;
          assert marked[i].removedEdges[q] <==> !GabrielValid(data, i, q);
        }
      }
    }
  }

  /** `generate_gabriel`: build, mark, sweep. One point per data row
      survives, and an edge survives exactly when it was built and passes the
      sphere test against the whole data set. */
  function GenerateGabriel(data: seq<Vector>, simplices: seq<seq<nat>>): (g: Graph)
    requires Rectangular(data) && ValidSimplices(simplices, |data|)
    ensures |g| == |data|
    ensures forall i :: 0 <= i < |g| ==> g[i].pId == i && g[i].coordinates == data[i]
    ensures forall i: nat, q: nat :: HasEdge(g, i, q) <==>
              HasEdge(GeneratePointGraph(data, simplices), i, q) && q < |data| && GabrielValid(data, i, q)
  {
    var built := GeneratePointGraph(data, simplices);
    assert Coordinates(built) == data;
    MarkThenSweep(built, data);
    RemoveEdges(PruneEdges(built))
  }
}

=== FILE: gabriel_theory.dfy ===
/** Properties of the Gabriel graph construction: the built graph is the
    deduplicated 1-skeleton of the triangulation, marking does not depend on
    the order in which points or edges are visited, and after the sweep
    exactly the Gabriel-valid skeleton edges remain. */
module GabrielTheory {
  import opened Geometry
  import opened Gabriel

  // ---------------------------------------------------------------------
  // The built graph is the triangulation's 1-skeleton
  // ---------------------------------------------------------------------

  /** The pairs of one simplex are exactly its ordered pairs of members. */
  lemma {:induction false} PairListMembership(s: seq<nat>)
    ensures forall j :: 0 <= j < |PairList(s)| ==> OrderedPair(s, PairList(s)[j].0, PairList(s)[j].1)
    ensures forall a, b :: 0 <= a < b < |s| ==> (s[a], s[b]) in PairList(s)
    decreases |s|
  {
    if |s| > 0 {
      PairListMembership(s[1..]);
      var head := seq(|s| - 1, k requires 0 <= k < |s| - 1 => (s[0], s[k + 1]));
      var ps := PairList(s);
      assert ps == head + PairList(s[1..]);
      forall j | 0 <= j < |ps|
        ensures OrderedPair(s, ps[j].0, ps[j].1)
      {
        if j < |head| {
          assert s[0] == ps[j].0 && s[j + 1] == ps[j].1;
        } else {
          var t := PairList(s[1..]);
          assert ps[j] == t[j - |head|];
          var a, b :| 0 <= a < b < |s[1..]| && s[1..][a] == ps[j].0 && s[1..][b] == ps[j].1;
          assert s[a + 1] == ps[j].0 && s[b + 1] == ps[j].1;
        }
      }
      forall a, b | 0 <= a < b < |s|
        ensures (s[a], s[b]) in ps
      {
        if a == 0 {
          assert head[b - 1] == (s[a], s[b]);
        } else {
          assert (s[1..][a - 1], s[1..][b - 1]) in PairList(s[1..]);
        }
      }
    }
  }

  /** The pairs of all simplices are exactly the skeleton pairs. */
  lemma {:induction false} SimplexPairsMembership(simplices: seq<seq<nat>>)
    ensures forall j :: 0 <= j < |SimplexPairs(simplices)| ==>
              SkeletonPair(simplices, SimplexPairs(simplices)[j].0, SimplexPairs(simplices)[j].1)
    ensures forall x: nat, y: nat :: SkeletonPair(simplices, x, y) ==> (x, y) in SimplexPairs(simplices)
    decreases |simplices|
  {
    if |simplices| > 0 {
      var m := |simplices| - 1;
      var init := simplices[..m];
      SimplexPairsMembership(init);
      PairListMembership(simplices[m]);
      var ps := SimplexPairs(simplices);
      var front, back := SimplexPairs(init), PairList(simplices[m]);
      assert ps == front + back;
      forall j | 0 <= j < |ps|
        ensures SkeletonPair(simplices, ps[j].0, ps[j].1)
      {
        if j < |front| {
          assert ps[j] == front[j];
          var k :| 0 <= k < |init| && OrderedPair(init[k], ps[j].0, ps[j].1);
          assert init[k] == simplices[k];
        } else {
          assert ps[j] == back[j - |front|];
          assert OrderedPair(simplices[m], ps[j].0, ps[j].1);
        }
      }
      forall x: nat, y: nat | SkeletonPair(simplices, x, y)
        ensures (x, y) in ps
      {
        var k :| 0 <= k < |simplices| && OrderedPair(simplices[k], x, y);
        var a, b :| 0 <= a < b < |simplices[k]| && simplices[k][a] == x && simplices[k][b] == y;
        if k < m {
          assert init[k] == simplices[k];
          assert SkeletonPair(init, x, y);
          assert (x, y) in front;
        } else {
          assert (x, y) in back;
        }
      }
    }
  }

  /** `__generate_point_graph` stores only skeleton pairs, and links every
      skeleton pair of distinct points in at least one direction. */
  lemma BuildIsSkeleton(data: seq<Vector>, simplices: seq<seq<nat>>)
    requires ValidSimplices(simplices, |data|)
    ensures forall i: nat, q: nat :: HasEdge(GeneratePointGraph(data, simplices), i, q) ==> SkeletonPair(simplices, i, q)
    ensures forall x: nat, y: nat :: x != y && SkeletonPair(simplices, x, y) ==> Linked(GeneratePointGraph(data, simplices), x, y)
  {
    var g := GeneratePointGraph(data, simplices);
    var ps := SimplexPairs(simplices);
    SimplexPairsMembership(simplices);
    SimplexPairsInRange(simplices, |data|);
    assert g == AddPairs(InitialGraph(data), ps);
    forall i: nat, q: nat | HasEdge(g, i, q)
      ensures SkeletonPair(simplices, i, q)
    {
      assert !HasEdge(InitialGraph(data), i, q);
      var j :| 0 <= j < |ps| && ps[j] == (i, q);
    }
    forall x: nat, y: nat | x != y && SkeletonPair(simplices, x, y)
      ensures Linked(g, x, y)
    {
      var j :| 0 <= j < |ps| && ps[j] == (x, y);
    }
  }

  // ---------------------------------------------------------------------
  // The sphere test
  // ---------------------------------------------------------------------

  /** The sphere test does not depend on which endpoint owns the edge. */
  lemma GabrielValidSymmetric(pts: seq<Vector>, i: nat, q: nat)
    requires Rectangular(pts) && i < |pts| && q < |pts|
    ensures GabrielValid(pts, i, q) <==> GabrielValid(pts, q, i)
  {
    CenterSymmetric(pts[i], pts[q]);
    SqDistSymmetric(pts[i], pts[q]);
    forall r | 0 <= r < |pts|
      ensures Blocks(pts, i, q, r) <==> Blocks(pts, q, i, r)
    {
    }
  }

  /** The test `gabriel.py` writes with a distance function, `dist(center, r)
      <= dist(p, q) / 2` over every other point, agrees with the squared test
      whenever that function is the Euclidean distance on the pairs it is
      applied to. */
  ghost predicate EuclideanOn(dist: Metric, a: Vector, b: Vector)
    requires |a| == |b|
  {
    dist(a, b) >= 0.0 && dist(a, b) * dist(a, b) == SqDist(a, b)
  }

  ghost predicate ValidWithDistance(dist: Metric, pts: seq<Vector>, i: nat, q: nat)
    requires i < |pts| && q < |pts|
  {
    forall r :: 0 <= r < |pts| && r != i && r != q ==>
      !(dist(Center(pts[i], pts[q]), pts[r]) <= dist(pts[i], pts[q]) / 2.0)
  }

  lemma SquaredTestAgrees(dist: Metric, pts: seq<Vector>, i: nat, q: nat)
    requires Rectangular(pts) && i < |pts| && q < |pts|
    requires EuclideanOn(dist, pts[i], pts[q])
    requires forall r :: 0 <= r < |pts| ==> |Center(pts[i], pts[q])| == |pts[r]| && EuclideanOn(dist, Center(pts[i], pts[q]), pts[r])
    ensures ValidWithDistance(dist, pts, i, q) <==> GabrielValid(pts, i, q)
  {
    var c := Center(pts[i], pts[q]);
    var d := dist(pts[i], pts[q]);
    assert d * d / 4.0 == SqDist(pts[i], pts[q]) / 4.0;
    forall r | 0 <= r < |pts| && r != i && r != q
      ensures (dist(c, pts[r]) <= d / 2.0) <==> Blocks(pts, i, q, r)
    {
      SphereTestSquared(dist(c, pts[r]), d);
    }
  }

  // ---------------------------------------------------------------------
  // Marking is order-independent
  // ---------------------------------------------------------------------

  /** Marking the targets of one point depends only on WHICH targets are
      visited, not on their order or repetition. */
  lemma MarkOrderIndependent(p: Point, i: nat, targets: seq<nat>, targets': seq<nat>, pts: seq<Vector>)
    requires Rectangular(pts) && i < |pts|
    requires forall q :: q in targets ==> q < |pts|
    requires forall q :: q in targets <==> q in targets'
    ensures MarkInvalid(p, i, targets, pts) == MarkInvalid(p, i, targets', pts)
  {
    var r, r' := MarkInvalid(p, i, targets, pts), MarkInvalid(p, i, targets', pts);
    assert r.removedEdges.Keys == r'.removedEdges.Keys;
    assert r.removedEdges == r'.removedEdges;
  }

  /** Pruning that visits the points in `order`, each step reading the graph
      as it stands. */
  function PruneInOrder(g: Graph, order: seq<nat>): (r: Graph)
    requires Rectangular(Coordinates(g)) && EdgesInRange(g)
    requires forall k :: 0 <= k < |order| ==> order[k] < |g|
    ensures |r| == |g| && Coordinates(r) == Coordinates(g) && EdgesInRange(r)
    decreases |order|
  {
    if |order| == 0 then g
    else
      var i := order[0];
      var g' := g[i := MarkInvalid(g[i], i, g[i].edges, Coordinates(g))];
      assert Coordinates(g') == Coordinates(g);
      PruneInOrder(g', order[1..])
  }

  /** Visiting the points in any order that reaches each point once gives
      the result of `__prune_edges`: every point marked against the unchanged
      coordinates. */
  lemma {:induction false} PruneOrderIndependent(g: Graph, order: seq<nat>)
    requires Rectangular(Coordinates(g)) && EdgesInRange(g)
    requires Distinct(order)
    requires forall k :: 0 <= k < |order| ==> order[k] < |g|
    ensures forall j :: 0 <= j < |g| ==>
              PruneInOrder(g, order)[j] == if j in order then MarkInvalid(g[j], j, g[j].edges, Coordinates(g)) else g[j]
    decreases |order|
  {
    if |order| > 0 {
      var i := order[0];
      var g' := g[i := MarkInvalid(g[i], i, g[i].edges, Coordinates(g))];
      assert Coordinates(g') == Coordinates(g);
      assert Distinct(order[1..]);
      PruneOrderIndependent(g', order[1..]);
      forall j | 0 <= j < |g|
        ensures PruneInOrder(g, order)[j] == if j in order then MarkInvalid(g[j], j, g[j].edges, Coordinates(g)) else g[j]
      {
        assert PruneInOrder(g, order) == PruneInOrder(g', order[1..]);
        if j == i {
          assert j !in order[1..];
        } else {
          assert j in order <==> j in order[1..];
        }
      }
    }
  }

  /** Any permutation of the points gives the same marks as the list order. */
  lemma PermutedPruneAgrees(g: Graph, order: seq<nat>)
    requires Rectangular(Coordinates(g)) && EdgesInRange(g)
    requires Distinct(order) && |order| == |g|
    requires forall k :: 0 <= k < |order| ==> order[k] < |g|
    ensures PruneInOrder(g, order) == PruneEdges(g)
  {
    PruneOrderIndependent(g, order);
    var r, r' := PruneInOrder(g, order), PruneEdges(g);
    forall j | 0 <= j < |g|
      ensures j in order
    {
      PigeonholeCover(order, |g|, j);
    }
    assert forall j :: 0 <= j < |g| ==> r[j] == r'[j];
  }

  /** A sequence of `n` distinct values below `n` contains every value below
      `n`. */
  lemma {:induction false} PigeonholeCover(order: seq<nat>, n: nat, j: nat)
    requires Distinct(order) && |order| == n
    requires forall k :: 0 <= k < |order| ==> order[k] < n
    requires j < n
    ensures j in order
  {
    if j !in order {
      var s := set k | 0 <= k < |order| :: order[k];
      RangeSet(n);
      assert s <= Below(n) - {j};
      assert |Below(n) - {j}| == n - 1;
      DistinctImageSize(order);
      SubsetSize(s, Below(n) - {j});
    }
  }

  /** The values below `n`. */
  function Below(n: nat): set<nat>
  {
    if n == 0 then {} else Below(n - 1) + {n - 1}
  }

  lemma {:induction false} RangeSet(n: nat)
    ensures |Below(n)| == n
    ensures forall v: nat :: v in Below(n) <==> v < n
    decreases n
  {
    if n > 0 {
      RangeSet(n - 1);
      assert n - 1 !in Below(n - 1);
      forall v: nat
        ensures v in Below(n) <==> v < n
      {
        assert v in Below(n) <==> v in Below(n - 1) || v == n - 1;
      }
    }
  }

  lemma {:induction false} DistinctImageSize(order: seq<nat>)
    requires Distinct(order)
    ensures |set k | 0 <= k < |order| :: order[k]| == |order|
    decreases |order|
  {
    if |order| > 0 {
      var m := |order| - 1;
      assert Distinct(order[..m]);
      DistinctImageSize(order[..m]);
      var front := set k | 0 <= k < m :: order[..m][k];
      assert (set k | 0 <= k < |order| :: order[k]) == front + {order[m]};
      assert order[m] !in front;
    }
  }

  lemma SubsetSize(a: set<nat>, b: set<nat>)
    requires a <= b
    ensures |a| <= |b|
  {
    assert b == a + (b - a);
  }

  // ---------------------------------------------------------------------
  // After the sweep: exactly the Gabriel-valid skeleton edges
  // ---------------------------------------------------------------------

  /** `generate_gabriel` produces the Gabriel graph of the triangulation:
      each stored edge joins two distinct members of a simplex and passes the
      sphere test; each skeleton pair of distinct points is linked exactly
      when it passes the test; and no pair is stored twice. */
  lemma GabrielGraphOfSkeleton(data: seq<Vector>, simplices: seq<seq<nat>>)
    requires Rectangular(data) && ValidSimplices(simplices, |data|)
    ensures var g := GenerateGabriel(data, simplices);
      && |g| == |data|
      && (forall i :: 0 <= i < |g| ==> g[i].pId == i && g[i].coordinates == data[i])
      && NoSelfLoops(g) && NoDuplicateEdges(g)
      && (forall i: nat, q: nat :: HasEdge(g, i, q) ==>
            i != q && q < |data| && SkeletonPair(simplices, i, q) && GabrielValid(data, i, q))
      && (forall x: nat, y: nat :: x != y && x < |data| && y < |data| && SkeletonPair(simplices, x, y) ==>
            (Linked(g, x, y) <==> GabrielValid(data, x, y)))
  {
    var built := GeneratePointGraph(data, simplices);
    var g := GenerateGabriel(data, simplices);
    BuildIsSkeleton(data, simplices);
    assert Coordinates(built) == data;
    var marked := PruneEdges(built);
    MarkThenSweep(built, data);
    assert g == RemoveEdges(marked);
    forall i | 0 <= i < |g|
      ensures i !in g[i].edges
    {
      assert !HasEdge(built, i, i);
    }
    forall i, q | 0 <= i < |g| && 0 <= q < |g| && q in g[i].edges
      ensures i !in g[q].edges
    {
      assert HasEdge(built, i, q);
      assert !HasEdge(built, q, i);
    }
    forall i | 0 <= i < |g|
      ensures Distinct(g[i].edges)
    {
      assert Distinct(built[i].edges);
      SubsequenceKeepsDistinct(g[i].edges, built[i].edges);
    }
    forall i: nat, q: nat | HasEdge(g, i, q)
      ensures i != q
    {
      assert HasEdge(built, i, q);
    }
    forall x: nat, y: nat | x != y && x < |data| && y < |data| && SkeletonPair(simplices, x, y)
      ensures Linked(g, x, y) <==> GabrielValid(data, x, y)
    {
      GabrielValidSymmetric(data, x, y);
    }
  }

  /** Filtering keeps a list free of repetitions. */
  lemma {:induction false} SubsequenceKeepsDistinct(a: seq<nat>, b: seq<nat>)
    requires IsSubsequence(a, b) && Distinct(b)
    ensures Distinct(a)
    decreases |b|
  {
    if |a| > 0 && |b| > 0 {
      if a[0] == b[0] && IsSubsequence(a[1..], b[1..]) {
        SubsequenceKeepsDistinct(a[1..], b[1..]);
        SubsequenceMembers(a[1..], b[1..]);
        forall x, y | 0 <= x < y < |a|
          ensures a[x] != a[y]
        {
          if x == 0 {
            assert a[y] == a[1..][y - 1];
            assert a[y] in b[1..];
          } else {
            assert a[x] == a[1..][x - 1] && a[y] == a[1..][y - 1];
          }
        }
      } else {
        SubsequenceKeepsDistinct(a, b[1..]);
      }
    }
  }

  lemma {:induction false} SubsequenceMembers(a: seq<nat>, b: seq<nat>)
    requires IsSubsequence(a, b)
    ensures forall x :: x in a ==> x in b
    decreases |b|
  {
    if |a| > 0 && |b| > 0 {
      if a[0] == b[0] && IsSubsequence(a[1..], b[1..]) {
        SubsequenceMembers(a[1..], b[1..]);
        forall x | x in a
          ensures x in b
        {
          if x != a[0] {
            assert x in a[1..];
          }
        }
      } else {
        SubsequenceMembers(a, b[1..]);
      }
    }
  }
}

=== FILE: geometry.dfy ===
/** Coordinate vectors, squared Euclidean distance and the midpoint of a
    segment. Distances are kept squared so that no square root is needed;
    `SphereTestSquared` shows that this does not change any comparison the
    Python code makes between (non-negative) distances. */
module Geometry {

  /** A point's coordinates. */
  type Vector = seq<real>

  /** A distance between two points, such as `distance.euclidean`. */
  type Metric = (Vector, Vector) -> real

  /** Every point of the data set has the same dimension (a numpy ndarray is
      rectangular). */
  predicate Rectangular(pts: seq<Vector>)
  {
    forall i, j :: 0 <= i < |pts| && 0 <= j < |pts| ==> |pts[i]| == |pts[j]|
  }

  /** The square of the Euclidean distance between two vectors of the same
      dimension. */
  function SqDist(a: Vector, b: Vector): (d: real)
    requires |a| == |b|
    ensures d >= 0.0
    ensures |a| == 0 ==> d == 0.0
  {
    if |a| == 0 then 0.0
    else (a[0] - b[0]) * (a[0] - b[0]) + SqDist(a[1..], b[1..])
  }

  /** The midpoint of the segment between two coordinate vectors, computed
      component by component over the pairs `zip` produces (so the shorter
      vector decides the length). */
  function Center(a: Vector, b: Vector): (c: Vector)
    ensures |c| == if |a| <= |b| then |a| else |b|
    ensures forall k :: 0 <= k < |c| ==> a[k] - c[k] == c[k] - b[k]
  {
    var n := if |a| <= |b| then |a| else |b|;
    seq(n, k requires 0 <= k < n => (a[k] + b[k]) / 2.0)
  }

  /** Squared distance is symmetric. */
  lemma {:induction false} SqDistSymmetric(a: Vector, b: Vector)
    requires |a| == |b|
    ensures SqDist(a, b) == SqDist(b, a)
  {
    if |a| > 0 {
      SqDistSymmetric(a[1..], b[1..]);
    }
  }

  /** The midpoint does not depend on the order of the endpoints. */
  lemma CenterSymmetric(a: Vector, b: Vector)
    ensures Center(a, b) == Center(b, a)
  {
    var c, c' := Center(a, b), Center(b, a);
    assert |c| == |c'|;
    forall k | 0 <= k < |c|
      ensures c[k] == c'[k]
    {
      assert c[k] == (a[k] + b[k]) / 2.0 && c'[k] == (b[k] + a[k]) / 2.0;
    }
  }

  /** The midpoint of a same-dimension pair has the same dimension and lies at
      half the distance from each endpoint: both endpoints sit exactly on the
      sphere whose diameter is the segment. */
  lemma {:induction false} CenterEquidistant(a: Vector, b: Vector)
    requires |a| == |b|
    ensures |Center(a, b)| == |a|
    ensures SqDist(Center(a, b), a) == SqDist(a, b) / 4.0
    ensures SqDist(Center(a, b), b) == SqDist(a, b) / 4.0
  {
    var c := Center(a, b);
    if |a| > 0 {
      assert c[1..] == Center(a[1..], b[1..]);
      CenterEquidistant(a[1..], b[1..]);
      var x, y := a[0], b[0];
      assert c[0] == (x + y) / 2.0;
      assert c[0] - x == (y - x) / 2.0;
      assert c[0] - y == (x - y) / 2.0;
      assert (c[0] - x) * (c[0] - x) == (x - y) * (x - y) / 4.0;
      assert (c[0] - y) * (c[0] - y) == (x - y) * (x - y) / 4.0;
    }
  }

  /** For non-negative distances, the test of `gabriel.py`
      `dist(center, r) <= diameter / 2` holds exactly when its squared form
      does. */
  lemma SphereTestSquared(dc: real, diameter: real)
    requires dc >= 0.0 && diameter >= 0.0
    ensures dc <= diameter / 2.0 <==> dc * dc <= diameter * diameter / 4.0
  {
    var r := diameter / 2.0;
    assert r * r == diameter * diameter / 4.0;
    if dc <= r {
      SquareMonotone(dc, r);
    } else {
      SquareStrictlyMonotone(r, dc);
    }
  }

  lemma SquareMonotone(x: real, y: real)
    requires 0.0 <= x <= y
    ensures x * x <= y * y
  {
    assert x * x <= x * y;
    assert x * y <= y * y;
  }

  lemma SquareStrictlyMonotone(x: real, y: real)
    requires 0.0 <= x < y
    ensures x * x < y * y
  {
    var a, b, c := x * x, x * y, y * y;
    assert a <= b;
    assert b < c;
  }
}

=== FILE: wrappers.dfy ===
/** Failure-carrying values used where the Python code raises an exception
    or where a foreign library call can fail. */
module Wrappers {

  /** A value that may be absent. */
  datatype Option<+T> = None | Some(value: T)

  /** A computed value, or the error that aborted the computation. */
  datatype Result<+T, +E> = Success(value: T) | Failure(error: E)
}
